=== FILE: README.md ===
# Coaching-institute results wall: a Dafny model

The application lists coaching institutes together with their verified
achievers: students whose roll numbers were checked against a national result
table. An institute administrator registers the institute, types roll numbers
into a list of input fields and runs a batch verification. Each non-blank
entry comes back as one of three outcomes:

- a *success*, carrying the table's row;
- a *double claim* (malpractice), when another institute already lists the
  roll number;
- an *error*, when the number is unknown.

A success can be added to the institute's wall, its public roster. Students
search institutes by location, and the list is ranked by roster size and then
by fee.

This project models that core as pure functions over immutable data, and
proves what the code promises. One module per concern:

| module | file | what it models |
|---|---|---|
| `Types` | `types.dfy` | `Student`, `College`, the result-table row, the three verification outcomes (`types.ts`) |
| `Text` | `text.dfy` | `trim`, `toLowerCase`, `includes`, `join`, `replace(/\D/g, '')` with `parseInt`, and decimal printing of integers and percentiles |
| `Seqs` | `seqs.dfy` | `Array.prototype.filter` and its facts |
| `Verifier` | `verifier.dfy` | `handleBatchVerify`: trimming, the claim scan, the table lookup, dropping blank entries |
| `Ranker` | `ranker.dfy` | `getSortedColleges`: the location filter and the stable comparator sort |
| `Registry` | `registry.dfy` | the administrator's state machine and the double-claim invariant |
| `Counselor` | `counselor.dfy` | the context string sent with each chat message |
| `Fixtures` | `fixtures.dfy` | `INITIAL_COLLEGES` and `NTA_MOCK_DATABASE`, plus worked examples on them |

Modelling choices:

- The state machine's `Step` is total. An action whose control is not on
  screen does nothing. Registration is shown only when no institute is
  active. Verification, the input fields and sign-out are shown only when
  one is. "Add to Wall" is shown only beside a success.
- The result table is a parameter. The seed table is `Fixtures.NtaMockDatabase`.
- Percentiles are integers in hundredths (99.85 is 9985). Ratings are in
  tenths (4.5 is 45). `HundredthsText` writes out how JavaScript prints
  such a number below 2^53: the integer part in full decimal, then the
  fraction without trailing zeros.
- A fee with no digit has key `None`, which stands for `NaN`. A comparator
  result of `NaN` counts as 0, as the sort's comparison step makes it.

## Model

| member | source | states |
|---|---|---|
| Text.TrimSpec | App.tsx:54 | the trimmed id is an infix of the entry with only white space around it, starts and ends with a non-space, and is empty exactly when the entry is all white space |
| Text.Lower | App.tsx:43 | lower-casing keeps the length, turns every upper-case ASCII letter into its own lower-case letter, leaves no upper-case letter, and keeps every other character |
| Text.LowerCharEqIff | App.tsx:43 | two characters fold to the same character exactly when they are equal ignoring ASCII case |
| Text.LowerIncludesIff | App.tsx:43 | the lower-cased location contains the lower-cased query exactly when the query occurs in the location ignoring ASCII case |
| Text.KeepDigitsSpec | App.tsx:44 | digit extraction never lengthens the fee, is empty exactly when the fee has no digit, and leaves a digit string unchanged |
| Text.KeepDigitsIsFilter | App.tsx:44 | digit extraction is exactly the filter keeping the fee's decimal digits, all of them, in order |
| Text.ParseDigitsOfNaN | App.tsx:44 | the fee key is NaN (None) exactly when the fee string has no digit |
| Text.DecimalValueOfNatText | App.tsx:85 | a printed number reads back as the same number |
| Text.JoinHasEach | App.tsx:109 | every joined item occurs in the joined string |
| Text.JoinAppend | App.tsx:109 | joining one more item appends the separator and the item, so the items appear in order with one separator between neighbours |
| Text.HundredthsText | App.tsx:85 | a percentile prints as its whole part in decimal, then, unless it is whole, a point and one or two fraction digits with no trailing 0 (so 95.00 prints as "95") |
| Text.HundredthsTextRoundTrip | App.tsx:85 | a printed percentile reads back as the same percentile |
| Seqs.FilterMultiset | App.tsx:43 | filtering keeps each element exactly as often as it occurs when it passes the test, and drops it otherwise |
| Seqs.FilterMembers | App.tsx:96 | an element is kept exactly when it occurs and passes the test |
| Verifier.FirstClaim | App.tsx:58-60 | the scan finds nothing exactly when no non-active institute holds the number, and otherwise the first such institute in list order |
| Verifier.MalpracticeMessage | App.tsx:66 | the double-claim message is the fixed text, the claiming institute's name (recoverable from the message), and a closing quote and full stop |
| Verifier.Check | App.tsx:57-73 | the claim check comes before the lookup: a claim by another institute is malpractice naming the first claimant, even when the table lists the number; the active institute's own roster is exempt, and with none active every roster counts; without a claim, an absent number is "Invalid Roll Number" and a present one is a success copying the table row |
| Verifier.Classify | App.tsx:53-55 | each entry's outcome carries the trimmed entry as its id, and a blank entry gives the "Empty field" error with an empty id |
| Verifier.CleanIdsAppend | App.tsx:53-74 | the non-blank trimmed entries of two concatenated batches are those of the first followed by those of the second |
| Verifier.CheckEachAt | App.tsx:53-73 | checking a list of roll numbers gives one outcome per number, the `k`-th being the check of the `k`-th |
| Verifier.FilterAfterMapIsCheckOfCleanIds | App.tsx:53-74 | mapping every entry and then dropping empty ids equals checking only the non-blank trimmed entries, in order |
| Verifier.VerifyBatch | App.tsx:52-77 | one outcome per non-blank entry, in input order, each the check of that trimmed entry against the same snapshot; equal ids get equal outcomes |
| Verifier.VerifyBatchAppend | App.tsx:52-77 | verifying a concatenation gives the two batches' outcomes concatenated |
| Verifier.VerifyBatchSingle | App.tsx:52-77 | a single blank entry gives no outcome, and a non-blank one gives exactly its check |
| Ranker.EmptyQueryKeepsAll | App.tsx:43 | an empty query keeps every institute, in order |
| Ranker.EqualKeysTie | App.tsx:44 | institutes with the same roster size and fee key compare as ties, whatever the fees |
| Ranker.CompareMeaning | App.tsx:44 | when both fees have digits, the comparator is antisymmetric, is zero exactly on equal keys, and is non-positive exactly when the first has more students or as many and a fee no higher |
| Ranker.InsertPermutes | App.tsx:44 | insertion adds exactly the inserted institute |
| Ranker.SortPermutes | App.tsx:44 | the sort is a permutation of its input |
| Ranker.InsertKeepsKeyOrder | App.tsx:44 | insertion puts the new institute ahead of those with the same key and moves nothing else within a key |
| Ranker.SortIsStable | App.tsx:44 | for every key, institutes with that key keep their input order, as a stable sort guarantees |
| Ranker.InsertSorted | App.tsx:44 | inserting into a ranked list keeps it ranked when every fee has a digit |
| Ranker.SortIsSorted | App.tsx:44 | the output is in rank order when every fee has a digit |
| Ranker.RankFacts | App.tsx:41-45 | the ranking is a permutation of the matching institutes, contains exactly them, and is ranked when every matching institute's fee has a digit |
| Ranker.Rank | App.tsx:41-45 | the result is a permutation of exactly the institutes whose location contains the query, ignoring case, in rank order when every matching institute's fee has a digit |
| Ranker.RankIsStable | App.tsx:41-45 | ties keep their order in the list |
| Registry.ScoreText | App.tsx:85 | a present, non-zero percentile prints as the percentile in JavaScript's canonical form for values below 2^53 (readable back) followed by "%tile"; otherwise "AIR " followed by the rank in plain decimal with no leading zero, as JavaScript prints ranks below 2^53 (readable back), or "undefined" when the rank is absent |
| Registry.NewStudent | App.tsx:82-87 | the new roster entry has the result's id, its name or "Unknown" when absent or empty, the score text, and its exam or JEE Mains when absent |
| Registry.AddStudentToProfile | App.tsx:79-97 | with no active institute nothing changes; otherwise the new student is appended to the active institute's roster and all its other fields are kept, every list entry with the active id becomes the updated institute, other entries and the input fields stay, and exactly the results with a different id remain, in their order and with their multiplicity |
| Registry.AddTwiceListsTwice | App.tsx:89-92 | adding the same result twice lists the student twice on the active roster |
| Registry.AddAppendsToActiveEntry | App.tsx:89-94 | under the invariant, adding changes exactly one list entry, the active institute's, by appending the new student |
| Registry.Register | App.tsx:333-344 | registration appends a new institute after all existing ones and makes it active; it has the form's name, location and fee, the fresh id, an empty phone, a hostel, an empty roster and rating 4.5 |
| Registry.SignOut | App.tsx:374 | sign-out clears the active institute and the results and leaves the institutes and fields |
| Registry.RunVerification | App.tsx:76 | running the batch replaces the results with the batch outcome and changes nothing else |
| Registry.EditField | App.tsx:423-427 | typing changes only the edited field |
| Registry.RemoveField | App.tsx:431 | the remove button drops exactly the field at its index and keeps the rest in order |
| Registry.RemovePreservesLength | App.tsx:429-431 | since the remove button is shown only with two or more fields, at least one field always remains |
| Registry.AddField | App.tsx:440 | "add another" appends one empty field and keeps the others |
| Registry.AddKeepsNoDoubleClaim | App.tsx:89-94 | adding a student no other institute holds keeps every roll number off a second roster |
| Registry.AddKeepsPendingUnclaimed | App.tsx:94-96 | the results left after an addition still name numbers no institute but the active one holds |
| Registry.AddPreservesInv | App.tsx:79-97 | adding a shown success keeps distinct ids, keeps every roll number off a second roster, and keeps pending successes unclaimed |
| Registry.RegisterPreservesInv | App.tsx:333-344 | registering with an unused id while signed out keeps the invariant |
| Registry.VerifyPreservesInv | App.tsx:52-77 | a fresh batch keeps the invariant: its successes name numbers no other institute holds |
| Registry.StepPreservesInv | App.tsx:331-440 | every user action keeps the invariant |
| Registry.RunPreservesInv | App.tsx:331-440 | every admissible sequence of actions keeps the invariant |
| Counselor.Phrases | App.tsx:109 | one phrase per institute, in list order |
| Counselor.Context | App.tsx:109 | the context starts with "Available Institutes: ", is only that for no institutes, and mentions every institute's phrase |
| Counselor.ContextMentionsEach | App.tsx:109 | every institute's phrase occurs in the context |
| Counselor.ContextAppend | App.tsx:109 | the context is built institute by institute in list order: the first phrase follows the prefix directly and each later one follows ", " |
| Fixtures.InitialStateInv | constants.ts:4-43 | the seed institutes have distinct ids and no roll number on two rosters |
| Fixtures.ReachableStatesHaveNoDoubleClaim | constants.ts:4-52 | from the seed data, no sequence of user actions ever puts a roll number on two rosters |
| Fixtures.SeedFeeKeys | constants.ts:9-22 | the Chaitanya and Vision fees have keys 150000 and 210000 |
| Fixtures.RahulScoreMatchesTable | constants.ts:14 | adding Rahul Sharma's table row gives the seeded entry, score "99.85%tile" |
| Fixtures.AnishScoreMatchesTable | constants.ts:15 | adding Anish Kumar's table row, percentile 0, gives the seeded entry, score "AIR 450" |
| Fixtures.RankInitial | constants.ts:4-43 | an empty query ranks Chaitanya, Vision, Akashic |
| Fixtures.RankInitialHyder | constants.ts:4-43 | the query "hyder" gives Chaitanya, Akashic |
| Fixtures.RankBreaksTiesByFee | App.tsx:44 | two-student institutes with fees 1,00,000 and 90,000 and a one-student institute rank as the 90,000 one, the 1,00,000 one, then the one-student one |
| Fixtures.ClaimBeatsTable | constants.ts:14 | Rahul Sharma checked by Vision is a double claim naming Chaitanya Academy, although the table lists him |
| Fixtures.OwnRosterFallsThroughToTable | constants.ts:46 | Rahul Sharma checked by Chaitanya itself is a success with the table row |
| Fixtures.RosteredButNotInTable | constants.ts:40 | Vikram Batra, on Akashic's roster and not in the table, is "Invalid Roll Number" when Akashic checks |
| Fixtures.RosteredElsewhereIsDoubleClaim | constants.ts:40 | Vikram Batra is a double claim naming Akashic for every active institute other than Akashic, and with nobody signed in |
| Fixtures.UnclaimedTableEntrySucceeds | constants.ts:50 | Mohit Jain is a success whichever institute checks |
| Fixtures.TestStudentSucceeds | constants.ts:51 | the test entry 240999999 is a success whichever institute checks |
| Fixtures.BlankFieldsAreDropped | App.tsx:53-74 | the batch "", "  ", "240100123" gives exactly one outcome, Rahul Sharma's success |
| Fixtures.UnknownIdIsError | App.tsx:70-71 | "ZZZ000", on no other institute's roster, gives exactly one "Invalid Roll Number" error |

## Left out

- Rendering: all JSX, layout and styling are presentation.
- The chat handler and the counselor service: an asynchronous network call to an external model. Only the context string is modelled.
- Id generation: `Date.now()` strings are not guaranteed unique. A registration takes the fresh id as a parameter, and the invariant proofs require that no institute already uses it.
- Floating point: percentiles are integers in hundredths and ratings in tenths. Printing is exact only for at most two decimals, which is what the table holds. The star display's `Math.floor` is not modelled.
- `parseInt` precision loss on very long digit strings: fee keys are unbounded naturals.
- Text.HundredthsText: every value prints in full decimal. JavaScript numbers round above 2^53 and print in exponent form from 1e21 ("1e+21"), and a negative percentile would print with a minus sign; table values are naturals well below 2^53, so neither is represented.
- Registry.ScoreText: the percentile and the rank print in full decimal, as `Text.HundredthsText` and `Text.NatText` do. JavaScript's rounding above 2^53, its exponent form from 1e21 and negative values are not represented.
- Ranker.Rank: sortedness is proved only when every matching institute's fee has a digit. A `NaN` key makes the comparator inconsistent, and the order the engine then produces is not specified.
- `toLowerCase` is ASCII-only and `trim` uses a fixed white-space set: no Unicode case mapping.
- The result table is a `map`: a plain object's prototype keys, such as "constructor", are not entries.
- React state batching, stale closures and the browser's `required` form validation.
- The optional `percentile` and `rank` fields of `Student` (types.ts:7-8): no code sets or reads them.
- The search box's `hasSearched` flag and reset: display state only.
- Seed institutes never become active: the application has no sign-in, so only a registered institute can be the active one.
- Fixtures.UnknownIdIsError: stated only for a registry where no institute other than the active one lists "ZZZ000". The code checks claims before the table, so an institute listing the number would make it a double claim.
- Ranking with a no-digit fee: the code's key is `parseInt('')`, which is `NaN`, not zero. Its comparator result counts as 0, a tie, rather than sorting the institute first. The model follows the code.

=== FILE: counselor.dfy ===
/** The context string handed to the counselor service with each chat
    message: a fixed prefix, then one phrase per institute joined with ", ".
    The service call itself is not modelled. */
module Counselor {

  import opened Text
  import opened Types

  const ContextPrefix := "Available Institutes: "
  const PhraseSeparator := ", "

  /** "<name> in <location> with <n> verified achievers". */
  function Phrase(c: College): string {
    c.name + " in " + c.location + " with " + NatText(|c.students|) + " verified achievers"
  }

  function Phrases(cs: seq<College>): (r: seq<string>)
    ensures |r| == |cs|
    ensures forall i :: 0 <= i < |cs| ==> r[i] == Phrase(cs[i])
  {
    if cs == [] then [] else [Phrase(cs[0])] + Phrases(cs[1..])
  }

  /** The context string starts with the fixed prefix, is just the prefix for
      an empty registry, and mentions every institute's phrase. */
  function Context(cs: seq<College>): (r: string)
    ensures |r| >= |ContextPrefix| && r[..|ContextPrefix|] == ContextPrefix
    ensures cs == [] ==> r == ContextPrefix
    ensures forall i :: 0 <= i < |cs| ==> IsInfix(r, Phrase(cs[i]))
  {
    var joined := Join(Phrases(cs), PhraseSeparator);
    ContextMentionsEach(cs, joined);
    ContextPrefix + joined
  }

  lemma {:induction false} PhrasesAppend(cs: seq<College>, c: College)
    ensures Phrases(cs + [c]) == Phrases(cs) + [Phrase(c)]
  {
  }

  /** The context is built institute by institute, in list order: the first
      phrase follows the prefix directly and every later one follows ", ". */
  lemma ContextAppend(cs: seq<College>, c: College)
    ensures Context(cs + [c]) ==
      if cs == [] then ContextPrefix + Phrase(c)
      else Context(cs) + PhraseSeparator + Phrase(c)
  {
    var ps := Phrases(cs);
    PhrasesAppend(cs, c);
    JoinAppend(ps, Phrase(c), PhraseSeparator);
    var joined := Join(ps + [Phrase(c)], PhraseSeparator);
    assert Context(cs + [c]) == ContextPrefix + joined;
    if cs != [] {
      assert Context(cs) == ContextPrefix + Join(ps, PhraseSeparator);
    }
  }

  lemma {:induction false} ContextMentionsEach(cs: seq<College>, joined: string)
    requires joined == Join(Phrases(cs), PhraseSeparator)
    ensures forall i :: 0 <= i < |cs| ==> IsInfix(ContextPrefix + joined, Phrase(cs[i]))
  {
    forall i | 0 <= i < |cs|
      ensures IsInfix(ContextPrefix + joined, Phrase(cs[i]))
    {
      JoinHasEach(Phrases(cs), PhraseSeparator, i);
      InfixOfSuffix(ContextPrefix, joined, Phrase(cs[i]));
    }
  }
}

=== FILE: fixtures.dfy ===
/** The seed data: the three institutes the application starts with, the
    roll-number lookup table, and what the operations do on them. */
module Fixtures {

  import opened Options
  import opened Text
  import opened Types
  import opened Verifier
  import opened Ranker
  import opened Registry

  function Chaitanya(): College {
    College("1", "Chaitanya Academy", "Hyderabad", "₹1,50,000", "9876543210", true,
      [ Student("240100123", "Rahul Sharma", "99.85%tile", JeeMains),
        Student("ADV24001", "Anish Kumar", "AIR 450", JeeAdvanced) ],
      48)
  }

  function Vision(): College {
    College("2", "Vision Institute", "Kota", "₹2,10,000", "9898989898", true,
      [ Student("240100456", "Priya Singh", "99.92%tile", JeeMains),
        Student("NEET2405", "Sneha Reddy", "99.78%tile", Neet) ],
      49)
  }

  function Akashic(): College {
    College("3", "Akashic Career Point", "Hyderabad", "₹1,20,000", "9123456780", false,
      [ Student("240100789", "Vikram Batra", "98.90%tile", JeeMains) ],
      45)
  }

  /** `INITIAL_COLLEGES`. */
  function InitialColleges(): seq<College> {
    [Chaitanya(), Vision(), Akashic()]
  }

  /** `NTA_MOCK_DATABASE`; percentiles in hundredths. */
  function NtaMockDatabase(): Table {
    map[
      "240100123" := TableEntry(Some("Rahul Sharma"), Some(9985), Some(1450), Some(JeeMains)),
      "240100456" := TableEntry(Some("Priya Singh"), Some(9992), Some(820), Some(JeeMains)),
      "ADV24001" := TableEntry(Some("Anish Kumar"), Some(0), Some(450), Some(JeeAdvanced)),
      "NEET2405" := TableEntry(Some("Sneha Reddy"), Some(9978), Some(2100), Some(Neet)),
      "NEET2409" := TableEntry(Some("Mohit Jain"), Some(9999), Some(12), Some(Neet)),
      "240999999" := TableEntry(Some("Test Student"), Some(9500), Some(50000), Some(JeeMains))
    ]
  }

  /** The state the application starts in: the seed institutes, nobody
      signed in, no results, one empty input field. */
  function InitialState(): AppState {
    AppState(InitialColleges(), None, [], [""])
  }

  /** The seed data meets the invariant: distinct ids, and no roll number on
      two rosters. */
  lemma InitialStateInv()
    ensures Inv(InitialState())
  {
    var cs := InitialColleges();
    forall i, j, rollNo | 0 <= i < |cs| && 0 <= j < |cs| && i != j && Holds(cs[i], rollNo)
      ensures !Holds(cs[j], rollNo)
    {
      var k :| 0 <= k < |cs[i].students| && cs[i].students[k].id == rollNo;
    }
  }

  /** Whatever the administrator does, no roll number ever ends up on two
      institutes' rosters. */
  lemma ReachableStatesHaveNoDoubleClaim(actions: seq<Action>)
    requires AdmissibleRun(InitialState(), NtaMockDatabase(), actions)
    ensures NoDoubleClaim(Run(InitialState(), NtaMockDatabase(), actions).colleges)
  {
    InitialStateInv();
    RunPreservesInv(InitialState(), NtaMockDatabase(), actions);
  }

  // ---------------------------------------------------------------------
  // Printed numbers and fee keys of the seed data

  lemma NatText450()
    ensures NatText(450) == "450"
  {
    assert NatText(4) == "4";
    assert NatText(45) == "45";
  }

  lemma DigitsValue150000()
    ensures DecimalValue("150000") == 150000
  {
    assert NatText(15) == "15";
    assert NatText(150) == "150";
    assert NatText(1500) == "1500";
    assert NatText(15000) == "15000";
    assert NatText(150000) == "150000";
    DecimalValueOfNatText(150000);
  }

  lemma DigitsValue210000()
    ensures DecimalValue("210000") == 210000
  {
    assert NatText(21) == "21";
    assert NatText(210) == "210";
    assert NatText(2100) == "2100";
    assert NatText(21000) == "21000";
    assert NatText(210000) == "210000";
    DecimalValueOfNatText(210000);
  }

  lemma KeepDigitsChaitanyaFee()
    ensures KeepDigits("₹1,50,000") == "150000"
  {
    KeepDigitsCons(',', "000");
    KeepDigitsCons('0', ",000");
    KeepDigitsCons('5', "0,000");
    KeepDigitsCons(',', "50,000");
    KeepDigitsCons('1', ",50,000");
    KeepDigitsCons('₹', "1,50,000");
  }

  lemma KeepDigitsVisionFee()
    ensures KeepDigits("₹2,10,000") == "210000"
  {
    KeepDigitsCons(',', "000");
    KeepDigitsCons('0', ",000");
    KeepDigitsCons('1', "0,000");
    KeepDigitsCons(',', "10,000");
    KeepDigitsCons('2', ",10,000");
    KeepDigitsCons('₹', "2,10,000");
  }

  /** The Chaitanya Academy fee sorts before the Vision Institute fee. */
  lemma SeedFeeKeys()
    ensures FeeKey(Chaitanya()) == Some(150000)
    ensures FeeKey(Vision()) == Some(210000)
  {
    KeepDigitsChaitanyaFee();
    KeepDigitsVisionFee();
    DigitsValue150000();
    DigitsValue210000();
  }

  /** Rahul Sharma's 99.85 prints as "99.85%tile", the seeded score. */
  lemma RahulScoreMatchesTable()
    ensures NewStudent(RahulSharma()) == Chaitanya().students[0]
  {
    RahulScoreText();
  }

  lemma RahulScoreText()
    ensures ScoreText(Some(9985), Some(1450)) == "99.85%tile"
  {
    assert HundredthsText(9985) == "99.85";
  }

  /** Anish Kumar's percentile of 0 falls back to the rank: "AIR 450", the
      seeded score. */
  lemma AnishScoreMatchesTable()
    ensures NewStudent(Success("ADV24001", Some("Anish Kumar"), Some(0), Some(450), Some(JeeAdvanced)))
      == Chaitanya().students[1]
  {
    NatText450();
  }

  // ---------------------------------------------------------------------
  // Ranking

  lemma HyderabadMatchesHyder()
    ensures MatchesLocation(Chaitanya(), "hyder") && MatchesLocation(Akashic(), "hyder")
  {
    var h := Lower("Hyderabad");
    assert Lower("hyder") == "hyder";
    assert h[0] == 'h' && h[1] == 'y' && h[2] == 'd' && h[3] == 'e' && h[4] == 'r';
    assert h[0..5] == "hyder";
    assert InfixAt(h, "hyder", 0);
  }

  lemma KotaDoesNotMatchHyder()
    ensures !MatchesLocation(Vision(), "hyder")
  {
    assert |Lower("Kota")| == 4;
  }

  lemma FilterSeedByHyder()
    ensures FilterByLocation(InitialColleges(), "hyder") == [Chaitanya(), Akashic()]
  {
    HyderabadMatchesHyder();
    KotaDoesNotMatchHyder();
    var p := LocationFilter("hyder");
    Seqs.FilterCons(Akashic(), [], p);
    Seqs.FilterCons(Vision(), [Akashic()], p);
    Seqs.FilterCons(Chaitanya(), [Vision(), Akashic()], p);
    assert [Chaitanya()] + [Vision(), Akashic()] == InitialColleges();
    assert [Vision()] + [Akashic()] == [Vision(), Akashic()];
  }

  lemma CompareSeed()
    ensures Compare(Vision(), Akashic()) < 0
    ensures Compare(Chaitanya(), Vision()) < 0
    ensures Compare(Chaitanya(), Akashic()) < 0
  {
    SeedFeeKeys();
  }

  lemma InsertVision()
    ensures Insert(Vision(), [Akashic()]) == [Vision(), Akashic()]
  {
    CompareSeed();
  }

  lemma InsertChaitanya()
    ensures Insert(Chaitanya(), [Vision(), Akashic()]) == [Chaitanya(), Vision(), Akashic()]
  {
    assert Compare(Chaitanya(), Vision()) < 0 by {
      CompareSeed();
    }
  }

  lemma InsertChaitanyaBeforeAkashic()
    ensures Insert(Chaitanya(), [Akashic()]) == [Chaitanya(), Akashic()]
  {
    assert Compare(Chaitanya(), Akashic()) < 0 by {
      CompareSeed();
    }
  }

  lemma SortSeed()
    ensures SortColleges(InitialColleges()) == InitialColleges()
    ensures SortColleges([Chaitanya(), Akashic()]) == [Chaitanya(), Akashic()]
  {
    InsertVision();
    InsertChaitanya();
    InsertChaitanyaBeforeAkashic();
    var cs := InitialColleges();
    assert cs[1..] == [Vision(), Akashic()] && cs[1..][1..] == [Akashic()] && cs[1..][1..][1..] == [];
    assert SortColleges([Akashic()]) == [Akashic()];
    assert [Chaitanya(), Akashic()][1..] == [Akashic()];
  }

  /** Ranking the seed institutes with an empty query: the two two-student
      institutes first, the cheaper first, then Akashic. */
  lemma RankInitial()
    ensures Rank(InitialColleges(), "") == [Chaitanya(), Vision(), Akashic()]
  {
    EmptyQueryKeepsAll(InitialColleges());
    SortSeed();
  }

  /** The query "hyder" keeps only the two Hyderabad institutes. */
  lemma RankInitialHyder()
    ensures Rank(InitialColleges(), "hyder") == [Chaitanya(), Akashic()]
  {
    FilterSeedByHyder();
    SortSeed();
  }

  // ---------------------------------------------------------------------
  // Checks against the seed data

  function RahulSharma(): VerificationResult {
    Success("240100123", Some("Rahul Sharma"), Some(9985), Some(1450), Some(JeeMains))
  }

  /** Rahul Sharma is on Chaitanya Academy's roster: checked by Vision
      Institute it is a double claim naming Chaitanya Academy, although the
      table lists the number. */
  lemma ClaimBeatsTable()
    ensures "240100123" in NtaMockDatabase()
    ensures Check(InitialColleges(), Some(Vision()), NtaMockDatabase(), "240100123")
      == Malpractice("240100123", MalpracticeMessage("Chaitanya Academy"))
  {
    assert Claims(Chaitanya(), Some(Vision()), "240100123") by {
      assert Chaitanya().students[0].id == "240100123";
    }
  }

  /** Checked by Chaitanya Academy itself, its own roster is not scanned and
      the table decides. */
  lemma OwnRosterFallsThroughToTable()
    ensures Check(InitialColleges(), Some(Chaitanya()), NtaMockDatabase(), "240100123") == RahulSharma()
  {
    assert !Holds(Vision(), "240100123") by {
      assert Vision().students[0].id[6] != '1' && Vision().students[1].id[0] != '2';
    }
    assert !Holds(Akashic(), "240100123") by {
      assert Akashic().students[0].id[6] != '1';
    }
  }

  /** Vikram Batra is on Akashic's roster but not in the table: checked by
      Akashic itself, the table decides and reports "Invalid Roll Number". */
  lemma RosteredButNotInTable()
    ensures "240100789" !in NtaMockDatabase()
    ensures Check(InitialColleges(), Some(Akashic()), NtaMockDatabase(), "240100789")
      == Error("240100789", InvalidRollNumber)
  {
    assert !Holds(Chaitanya(), "240100789") by {
      assert Chaitanya().students[0].id[6] != '7' && Chaitanya().students[1].id[0] != '2';
    }
    assert !Holds(Vision(), "240100789") by {
      assert Vision().students[0].id[6] != '7' && Vision().students[1].id[0] != '2';
    }
  }

  /** Checked by anyone but Akashic (or with nobody signed in), Vikram Batra
      is a double claim naming Akashic. */
  lemma RosteredElsewhereIsDoubleClaim(active: Option<College>)
    requires active.None? || active.value.id != "3"
    ensures Check(InitialColleges(), active, NtaMockDatabase(), "240100789")
      == Malpractice("240100789", MalpracticeMessage("Akashic Career Point"))
  {
    var cs := InitialColleges();
    assert !Holds(Chaitanya(), "240100789") by {
      assert Chaitanya().students[0].id[6] != '7' && Chaitanya().students[1].id[0] != '2';
    }
    assert !Holds(Vision(), "240100789") by {
      assert Vision().students[0].id[6] != '7' && Vision().students[1].id[0] != '2';
    }
    assert cs[0] == Chaitanya() && cs[1] == Vision() && cs[2] == Akashic();
    assert Claims(cs[2], active, "240100789") by {
      assert Akashic().students[0].id == "240100789";
    }
    assert IsFirstClaim(cs, active, "240100789", 2);
  }

  /** Mohit Jain is in the table and on no roster: a success whichever
      institute checks. */
  lemma UnclaimedTableEntrySucceeds(active: Option<College>)
    ensures Check(InitialColleges(), active, NtaMockDatabase(), "NEET2409")
      == Success("NEET2409", Some("Mohit Jain"), Some(9999), Some(12), Some(Neet))
  {
    assert !Holds(Chaitanya(), "NEET2409") by {
      assert Chaitanya().students[0].id[0] != 'N' && Chaitanya().students[1].id[0] != 'N';
    }
    assert !Holds(Vision(), "NEET2409") by {
      assert Vision().students[0].id[0] != 'N' && Vision().students[1].id[7] != '0';
    }
    assert !Holds(Akashic(), "NEET2409") by {
      assert Akashic().students[0].id[0] != 'N';
    }
  }

  /** The test entry is in the table and on no roster: a success whichever
      institute checks. */
  lemma TestStudentSucceeds(active: Option<College>)
    ensures Check(InitialColleges(), active, NtaMockDatabase(), "240999999")
      == Success("240999999", Some("Test Student"), Some(9500), Some(50000), Some(JeeMains))
  {
    assert !Holds(Chaitanya(), "240999999") by {
      assert Chaitanya().students[0].id[3] != '9' && Chaitanya().students[1].id[0] != '2';
    }
    assert !Holds(Vision(), "240999999") by {
      assert Vision().students[0].id[3] != '9' && Vision().students[1].id[0] != '2';
    }
    assert !Holds(Akashic(), "240999999") by {
      assert Akashic().students[0].id[3] != '9';
    }
  }

  // ---------------------------------------------------------------------
  // Batches

  /** Blank fields give no outcome at all; the one real entry is checked. */
  lemma BlankFieldsAreDropped()
    ensures VerifyBatch([], None, NtaMockDatabase(), ["", "  ", "240100123"]) == [RahulSharma()]
  {
    assert Trim("") == [];
    assert Trim("  ") == [];
    assert Trim("240100123") == "240100123";
    assert CleanIds(["", "  ", "240100123"]) == ["240100123"] by {
      var ids := ["", "  ", "240100123"];
      assert ids[1..] == ["  ", "240100123"] && ids[1..][1..] == ["240100123"];
      assert ids[1..][1..][1..] == [];
    }
  }

  /** An entry on no other institute's roster and not in the table is an
      invalid roll number. */
  lemma UnknownIdIsError(cs: seq<College>, active: Option<College>)
    requires forall i :: 0 <= i < |cs| && IsOther(cs[i], active) ==> !Holds(cs[i], "ZZZ000")
    ensures VerifyBatch(cs, active, NtaMockDatabase(), ["ZZZ000"]) == [Error("ZZZ000", InvalidRollNumber)]
  {
    assert Trim("ZZZ000") == "ZZZ000";
    VerifyBatchSingle(cs, active, NtaMockDatabase(), "ZZZ000");
  }

  // ---------------------------------------------------------------------
  // Ranking ties

  function Pupil(id: string): Student { Student(id, "", "", JeeMains) }
  function TieA(): College { College("a", "A", "Delhi", "₹1,00,000", "", true, [Pupil("1"), Pupil("2")], 45) }
  function TieB(): College { College("b", "B", "Delhi", "₹90,000", "", true, [Pupil("3"), Pupil("4")], 45) }
  function TieC(): College { College("c", "C", "Delhi", "₹50,000", "", true, [Pupil("5")], 45) }

  lemma KeepDigitsTieFeeA()
    ensures KeepDigits("₹1,00,000") == "100000"
  {
    KeepDigitsCons('0', "");
    KeepDigitsCons('0', "0");
    KeepDigitsCons('0', "00");
    KeepDigitsCons(',', "000");
    KeepDigitsCons('0', ",000");
    KeepDigitsCons('0', "0,000");
    KeepDigitsCons(',', "00,000");
    KeepDigitsCons('1', ",00,000");
    KeepDigitsCons('₹', "1,00,000");
  }

  lemma KeepDigitsTieFeeB()
    ensures KeepDigits("₹90,000") == "90000"
  {
    KeepDigitsCons('0', "");
    KeepDigitsCons('0', "0");
    KeepDigitsCons('0', "00");
    KeepDigitsCons(',', "000");
    KeepDigitsCons('0', ",000");
    KeepDigitsCons('9', "0,000");
    KeepDigitsCons('₹', "90,000");
  }

  lemma DigitsValue100000()
    ensures DecimalValue("100000") == 100000
  {
    assert NatText(10) == "10";
    assert NatText(100) == "100";
    assert NatText(1000) == "1000";
    assert NatText(10000) == "10000";
    assert NatText(100000) == "100000";
    DecimalValueOfNatText(100000);
  }

  lemma DigitsValue90000()
    ensures DecimalValue("90000") == 90000
  {
    assert NatText(90) == "90";
    assert NatText(900) == "900";
    assert NatText(9000) == "9000";
    assert NatText(90000) == "90000";
    DecimalValueOfNatText(90000);
  }

  lemma TieFeeKeys()
    ensures FeeKey(TieA()) == Some(100000)
    ensures FeeKey(TieB()) == Some(90000)
  {
    KeepDigitsTieFeeA();
    KeepDigitsTieFeeB();
    DigitsValue100000();
    DigitsValue90000();
  }

  lemma CompareTies()
    ensures Compare(TieB(), TieC()) < 0 && Compare(TieA(), TieC()) < 0
    ensures Compare(TieA(), TieB()) > 0
  {
    assert |TieA().students| == |TieB().students| == 2 && |TieC().students| == 1;
    TieFeeKeys();
  }

  lemma InsertTieB()
    ensures Insert(TieB(), [TieC()]) == [TieB(), TieC()]
  {
    CompareTies();
  }

  lemma InsertTieA()
    ensures Insert(TieA(), [TieB(), TieC()]) == [TieB(), TieA(), TieC()]
  {
    CompareTies();
    var ys := [TieB(), TieC()];
    assert ys[1..] == [TieC()];
    assert Insert(TieA(), [TieC()]) == [TieA(), TieC()];
    assert Insert(TieA(), ys) == [TieB()] + [TieA(), TieC()];
  }

  lemma SortTies()
    ensures SortColleges([TieA(), TieB(), TieC()]) == [TieB(), TieA(), TieC()]
  {
    InsertTieB();
    InsertTieA();
    var s := [TieA(), TieB(), TieC()];
    assert s[1..] == [TieB(), TieC()] && s[1..][1..] == [TieC()] && s[1..][1..][1..] == [];
    assert SortColleges([TieC()]) == [TieC()];
  }

  /** Two-student institutes before the one-student one, and between the
      two-student ones the lower fee first. */
  lemma RankBreaksTiesByFee()
    ensures Rank([TieA(), TieB(), TieC()], "") == [TieB(), TieA(), TieC()]
  {
    EmptyQueryKeepsAll([TieA(), TieB(), TieC()]);
    SortTies();
  }
}

=== FILE: options.dfy ===
/** An optional value: JavaScript's `undefined`-or-value fields and the `find`
    results of the application are modelled with it. */
module Options {

  datatype Option<+T> = None | Some(value: T) {

    /** The value, or `default` when there is none. */
    function GetOr(default: T): T {
      match this
      case Some(v) => v
      case None => default
    }
  }
}

=== FILE: ranker.dfy ===
/** Institute search (`getSortedColleges`): keep the institutes whose
    location contains the query, ignoring case, then order them by roster size
    (largest first) and, between equal sizes, by the number formed from the
    fee's digits (smallest first). `Array.prototype.sort` is stable, so it is
    modelled as an insertion sort that never moves an element past an equal
    one. */
module Ranker {

  import opened Options
  import opened Text
  import opened Types
  import Seqs

  /** `c.location.toLowerCase().includes(query.toLowerCase())`. */
  predicate MatchesLocation(c: College, query: string) {
    IsInfix(Lower(c.location), Lower(query))
  }

  function LocationFilter(query: string): College -> bool {
    c => MatchesLocation(c, query)
  }

  /** The `filter` step. */
  function FilterByLocation(cs: seq<College>, query: string): seq<College> {
    Seqs.Filter(cs, LocationFilter(query))
  }

  /** An empty query keeps every institute, in order. */
  lemma EmptyQueryKeepsAll(cs: seq<College>)
    ensures FilterByLocation(cs, "") == cs
  {
    forall i | 0 <= i < |cs|
      ensures MatchesLocation(cs[i], "")
    {
      assert Lower("") == "";
      assert InfixAt(Lower(cs[i].location), Lower(""), 0);
    }
    Seqs.FilterKeepsAll(cs, LocationFilter(""));
  }

  /** The fee key `parseInt(c.fees.replace(/\D/g, ''))`; None stands for NaN. */
  function FeeKey(c: College): Option<nat> {
    ParseDigitsOf(c.fees)
  }

  predicate HasFeeDigits(c: College) {
    FeeKey(c).Some?
  }

  /** The sort comparator `b.students.length - a.students.length ||
      feeA - feeB`; a NaN difference counts as 0, as the sort's comparison
      step makes it. */
  function Compare(a: College, b: College): int {
    var bySize := |b.students| - |a.students|;
    if bySize != 0 then bySize
    else
      match (FeeKey(a), FeeKey(b))
      case (Some(fa), Some(fb)) => fa as int - fb as int
      case _ => 0
  }

  /** What the comparator orders by. */
  datatype SortKey = SortKey(size: nat, fee: Option<nat>)

  function KeyOf(c: College): SortKey {
    SortKey(|c.students|, FeeKey(c))
  }

  function HasKey(k: SortKey): College -> bool {
    c => KeyOf(c) == k
  }

  /** `a` may come before `b`: more students, or as many and a fee no higher. */
  predicate InRankOrder(a: College, b: College) {
    || |a.students| > |b.students|
    || (|a.students| == |b.students| && FeeKey(a).GetOr(0) <= FeeKey(b).GetOr(0))
  }

  /** Equal keys are ties, whatever the fees. */
  lemma EqualKeysTie(a: College, b: College)
    requires KeyOf(a) == KeyOf(b)
    ensures Compare(a, b) == 0
  {
  }

  /** The comparator agrees with the rank order once every fee has a digit. */
  lemma CompareMeaning(a: College, b: College)
    requires HasFeeDigits(a) && HasFeeDigits(b)
    ensures Compare(a, b) <= 0 <==> InRankOrder(a, b)
    ensures Compare(a, b) == 0 <==> KeyOf(a) == KeyOf(b)
    ensures Compare(a, b) == -Compare(b, a)
  {
  }

  /** Inserts `x` before the first element it does not sort after. */
  function Insert(x: College, ys: seq<College>): seq<College> {
    if ys == [] then [x]
    else if Compare(x, ys[0]) <= 0 then [x] + ys
    else [ys[0]] + Insert(x, ys[1..])
  }

  /** Insertion adds exactly `x`. */
  lemma {:induction false} InsertPermutes(x: College, ys: seq<College>)
    ensures multiset(Insert(x, ys)) == multiset(ys) + multiset{x}
  {
    if ys != [] && Compare(x, ys[0]) > 0 {
      InsertPermutes(x, ys[1..]);
      assert Insert(x, ys) == [ys[0]] + Insert(x, ys[1..]);
      assert ys == [ys[0]] + ys[1..];
      Seqs.MultisetConsAdd(ys[0], Insert(x, ys[1..]), ys[1..], x);
    }
  }

  /** The stable sort: each element is inserted, from the last to the first,
      ahead of every element it ties with. */
  function SortColleges(s: seq<College>): seq<College> {
    if s == [] then [] else Insert(s[0], SortColleges(s[1..]))
  }

  /** Sorting is a permutation. */
  lemma {:induction false} SortPermutes(s: seq<College>)
    ensures multiset(SortColleges(s)) == multiset(s)
  {
    if s != [] {
      SortPermutes(s[1..]);
      InsertPermutes(s[0], SortColleges(s[1..]));
      assert s == [s[0]] + s[1..];
    }
  }

  /** Within one key, insertion puts `x` first and moves nothing else. */
  lemma {:induction false} InsertKeepsKeyOrder(x: College, ys: seq<College>, k: SortKey)
    ensures Seqs.Filter(Insert(x, ys), HasKey(k)) ==
      (if KeyOf(x) == k then [x] else []) + Seqs.Filter(ys, HasKey(k))
  {
    if ys == [] {
      Seqs.FilterCons(x, [], HasKey(k));
      assert [x] + [] == [x];
    } else if Compare(x, ys[0]) <= 0 {
      Seqs.FilterCons(x, ys, HasKey(k));
    } else {
      var y := ys[0];
      if KeyOf(x) == KeyOf(y) {
        EqualKeysTie(x, y);
      }
      InsertKeepsKeyOrder(x, ys[1..], k);
      assert Insert(x, ys) == [y] + Insert(x, ys[1..]);
      assert ys == [y] + ys[1..];
      var px := if KeyOf(x) == k then [x] else [];
      assert px == [] || !HasKey(k)(y);
      Seqs.FilterConsSkip(y, Insert(x, ys[1..]), ys[1..], px, HasKey(k));
    }
  }

  /** Stability: for every key, the elements with that key appear in the
      output in exactly their input order. */
  lemma {:induction false} SortIsStable(s: seq<College>, k: SortKey)
    ensures Seqs.Filter(SortColleges(s), HasKey(k)) == Seqs.Filter(s, HasKey(k))
  {
    if s != [] {
      SortIsStable(s[1..], k);
      InsertKeepsKeyOrder(s[0], SortColleges(s[1..]), k);
    }
  }

  predicate AllHaveFeeDigits(s: seq<College>) {
    forall i :: 0 <= i < |s| ==> HasFeeDigits(s[i])
  }

  predicate Sorted(s: seq<College>) {
    forall i, j :: 0 <= i < j < |s| ==> InRankOrder(s[i], s[j])
  }

  lemma InsertMembers(x: College, ys: seq<College>)
    ensures forall z :: z in Insert(x, ys) <==> z == x || z in ys
  {
    var r := Insert(x, ys);
    InsertPermutes(x, ys);
    assert forall z :: z in r <==> z in multiset(r);
    assert forall z :: z in ys <==> z in multiset(ys);
  }

  lemma {:induction false} InsertSorted(x: College, ys: seq<College>)
    requires HasFeeDigits(x) && AllHaveFeeDigits(ys)
    requires Sorted(ys)
    ensures Sorted(Insert(x, ys))
  {
    if ys == [] {
      assert Insert(x, ys) == [x];
    } else {
      var y := ys[0];
      CompareMeaning(x, y);
      if Compare(x, y) <= 0 {
        var r := [x] + ys;
        assert Insert(x, ys) == r;
        forall i, j | 0 <= i < j < |r|
          ensures InRankOrder(r[i], r[j])
        {
          if i == 0 {
            assert r[j] == ys[j - 1];
            if j > 1 {
              assert InRankOrder(y, ys[j - 1]);
            }
          } else {
            assert r[i] == ys[i - 1] && r[j] == ys[j - 1];
          }
        }
      } else {
        var tail := ys[1..];
        assert AllHaveFeeDigits(tail) && Sorted(tail);
        InsertSorted(x, tail);
        var ins := Insert(x, tail);
        InsertMembers(x, tail);
        forall z | z in ins
          ensures InRankOrder(y, z)
        {
          if z != x {
            var t :| 0 <= t < |tail| && tail[t] == z;
            assert ys[t + 1] == z;
          }
        }
        var r := [y] + ins;
        assert Insert(x, ys) == r;
        forall i, j | 0 <= i < j < |r|
          ensures InRankOrder(r[i], r[j])
        {
          assert r[j] == ins[j - 1];
          if i > 0 {
            assert r[i] == ins[i - 1];
          }
        }
      }
    }
  }

  lemma {:induction false} SortIsSorted(s: seq<College>)
    requires AllHaveFeeDigits(s)
    ensures Sorted(SortColleges(s))
  {
    if s != [] {
      SortIsSorted(s[1..]);
      var sorted := SortColleges(s[1..]);
      SortPermutes(s[1..]);
      forall i | 0 <= i < |sorted|
        ensures HasFeeDigits(sorted[i])
      {
        assert sorted[i] in multiset(s[1..]);
      }
      InsertSorted(s[0], sorted);
    }
  }

  lemma RankFacts(cs: seq<College>, query: string)
    ensures var r := SortColleges(FilterByLocation(cs, query));
      && multiset(r) == multiset(FilterByLocation(cs, query))
      && (forall c :: c in r <==> c in cs && MatchesLocation(c, query))
      && (AllHaveFeeDigits(FilterByLocation(cs, query)) ==> Sorted(r))
  {
    var kept := FilterByLocation(cs, query);
    var r := SortColleges(kept);
    SortPermutes(kept);
    Seqs.FilterMultiset(cs, LocationFilter(query));
    forall c
      ensures c in r <==> c in cs && MatchesLocation(c, query)
    {
      assert c in r <==> c in multiset(r);
      assert c in cs <==> c in multiset(cs);
      assert c in kept <==> c in multiset(kept);
      assert multiset(kept)[c] == if MatchesLocation(c, query) then multiset(cs)[c] else 0;
    }
    if AllHaveFeeDigits(kept) {
      SortIsSorted(kept);
    }
  }

  /** `getSortedColleges`: a permutation of exactly the institutes whose
      location matches the query, in rank order when every matching
      institute's fee has a digit;
      the registry itself is an input and is not changed. */
  function Rank(cs: seq<College>, query: string): (r: seq<College>)
    ensures multiset(r) == multiset(FilterByLocation(cs, query))
    ensures forall c :: c in r <==> c in cs && MatchesLocation(c, query)
    ensures AllHaveFeeDigits(FilterByLocation(cs, query)) ==> Sorted(r)
  {
    RankFacts(cs, query);
    SortColleges(FilterByLocation(cs, query))
  }

  /** Ties keep their input order in the ranking too. */
  lemma RankIsStable(cs: seq<College>, query: string, k: SortKey)
    ensures Seqs.Filter(Rank(cs, query), HasKey(k)) == Seqs.Filter(FilterByLocation(cs, query), HasKey(k))
  {
    SortIsStable(FilterByLocation(cs, query), k);
  }
}

=== FILE: registry.dfy ===
/** The administrator's side of the application as a state machine over
    (institutes, active institute, batch results, roll-number input fields):
    verifying a batch, adding a verified student to the active institute,
    registering an institute, signing out, and editing the input fields.
    Its invariant is the double-claim rule: no roll number is on the rosters
    of two different institutes. */
module Registry {

  import opened Options
  import opened Text
  import opened Types
  import opened Verifier
  import Seqs

  /** The registration form's editable fields. The form state also holds a
      phone (initially empty) and a hostel choice (initially "yes"), but no
      input on the form changes them. */
  datatype RegistrationForm = RegistrationForm(name: string, location: string, fees: string)

  /** The application state the transitions read and write. */
  datatype AppState = AppState(
    colleges: seq<College>,
    current: Option<College>,
    batchResults: seq<VerificationResult>,
    verifyIds: seq<string>)

  /** The rating every newly registered institute gets (4.5). */
  const DefaultRatingTenths: nat := 45

  // ---------------------------------------------------------------------
  // Score text of a new roster entry

  const PercentileSuffix := "%tile"
  const AirPrefix := "AIR "

  /** `res.percentile ? `${res.percentile}%tile` : `AIR ${res.rank}``: a
      present, non-zero percentile is printed with the "%tile" suffix;
      otherwise (absent or 0) the rank follows "AIR ", printed as
      "undefined" when absent. Both numbers are printed in JavaScript's
      canonical form and can be read back. */
  function ScoreText(percentile: Option<nat>, rank: Option<nat>): (r: string)
    ensures percentile.Some? && percentile.value != 0 ==>
      && |r| > |PercentileSuffix|
      && r[|r| - |PercentileSuffix|..] == PercentileSuffix
      && r[..|r| - |PercentileSuffix|] == HundredthsText(percentile.value)
      && ReadHundredths(r[..|r| - |PercentileSuffix|]) == Some(percentile.value)
    ensures !(percentile.Some? && percentile.value != 0) ==>
      && |r| > |AirPrefix|
      && r[..|AirPrefix|] == AirPrefix
      && (rank.Some? ==> r[|AirPrefix|..] == NatText(rank.value))
      && (rank.Some? ==> ParseDigitsOf(r[|AirPrefix|..]) == Some(rank.value))
      && (rank.None? ==> r[|AirPrefix|..] == "undefined")
  {
    if percentile.Some? && percentile.value != 0 then
      var p := HundredthsText(percentile.value);
      HundredthsTextRoundTrip(percentile.value);
      assert (p + PercentileSuffix)[..|p|] == p;
      p + PercentileSuffix
    else if rank.Some? then
      var t := NatText(rank.value);
      ParseDigitsOfNatText(rank.value);
      assert (AirPrefix + t)[|AirPrefix|..] == t;
      AirPrefix + t
    else
      AirPrefix + "undefined"
  }

  // ---------------------------------------------------------------------
  // Transitions

  function ResultName(res: VerificationResult): Option<string> {
    if res.Success? then res.name else None
  }

  function ResultPercentile(res: VerificationResult): Option<nat> {
    if res.Success? then res.percentile else None
  }

  function ResultRank(res: VerificationResult): Option<nat> {
    if res.Success? then res.rank else None
  }

  function ResultExam(res: VerificationResult): Option<Exam> {
    if res.Success? then res.exam else None
  }

  /** The roster entry made from a verification result: its id, its name or
      "Unknown" when the name is absent or empty, its score text, and its
      exam or JEE Mains when absent. */
  function NewStudent(res: VerificationResult): (st: Student)
    ensures st.id == res.id
    ensures st.name != []
    ensures ResultName(res).Some? && ResultName(res).value != [] ==> st.name == ResultName(res).value
    ensures !(ResultName(res).Some? && ResultName(res).value != []) ==> st.name == "Unknown"
    ensures st.score == ScoreText(ResultPercentile(res), ResultRank(res))
    ensures ResultExam(res).None? ==> st.exam == JeeMains
    ensures ResultExam(res).Some? ==> st.exam == ResultExam(res).value
  {
    var name := ResultName(res);
    Student(
      res.id,
      if name.Some? && name.value != [] then name.value else "Unknown",
      ScoreText(ResultPercentile(res), ResultRank(res)),
      ResultExam(res).GetOr(JeeMains))
  }

  function OtherId(id: string): VerificationResult -> bool {
    (r: VerificationResult) => r.id != id
  }

  /** `addStudentToProfile`: with no active institute nothing changes.
      Otherwise the active institute (as last stored) gains the new student
      at the end of its roster, every list entry with its id is replaced by
      it, every other entry and the list's length are unchanged, and every
      batch result with the added roll number is removed while the others
      keep their order and multiplicity. */
  function AddStudentToProfile(s: AppState, res: VerificationResult): (t: AppState)
    ensures s.current.None? ==> t == s
    ensures s.current.Some? ==>
      && t.current.Some?
      && t.current.value.id == s.current.value.id
      && t.current.value.students == s.current.value.students + [NewStudent(res)]
      && t.current.value == s.current.value.(students := s.current.value.students + [NewStudent(res)])
      && |t.colleges| == |s.colleges|
      && (forall i :: 0 <= i < |s.colleges| && s.colleges[i].id != s.current.value.id ==>
            t.colleges[i] == s.colleges[i])
      && (forall i :: 0 <= i < |s.colleges| && s.colleges[i].id == s.current.value.id ==>
            t.colleges[i] == t.current.value)
      && t.batchResults == Seqs.Filter(s.batchResults, OtherId(res.id))
      && (forall r :: r in t.batchResults <==> r in s.batchResults && r.id != res.id)
      && t.verifyIds == s.verifyIds
  {
    if s.current.None? then s
    else
      var cur := s.current.value;
      var updated := cur.(students := cur.students + [NewStudent(res)]);
      var colleges := seq(|s.colleges|, i requires 0 <= i < |s.colleges| =>
        if s.colleges[i].id == cur.id then updated else s.colleges[i]);
      var results := Seqs.Filter(s.batchResults, OtherId(res.id));
      Seqs.FilterMembers(s.batchResults, OtherId(res.id));
      AppState(colleges, Some(updated), results, s.verifyIds)
  }

  /** The institute the registration form creates: the form's fields, the
      fresh id, an empty phone, a hostel, an empty roster, and the default
      rating. */
  function NewCollege(form: RegistrationForm, freshId: string): College {
    College(freshId, form.name, form.location, form.fees, "", true, [], DefaultRatingTenths)
  }

  /** Registration (the form's submit handler): the new institute is appended
      after every existing one and becomes the active institute. */
  function Register(s: AppState, form: RegistrationForm, freshId: string): (t: AppState)
    ensures |t.colleges| == |s.colleges| + 1
    ensures t.colleges[..|s.colleges|] == s.colleges
    ensures t.current == Some(t.colleges[|s.colleges|])
    ensures var c := t.colleges[|s.colleges|];
      && c.id == freshId && c.students == []
      && c.name == form.name && c.location == form.location && c.fees == form.fees
      && c.phone == [] && c.hostel
      && c.ratingTenths == DefaultRatingTenths
    ensures t.batchResults == s.batchResults && t.verifyIds == s.verifyIds
  {
    var c := NewCollege(form, freshId);
    var colleges := s.colleges + [c];
    assert colleges[..|s.colleges|] == s.colleges;
    AppState(colleges, Some(c), s.batchResults, s.verifyIds)
  }

  /** Sign-out: no active institute and no batch results. */
  function SignOut(s: AppState): (t: AppState)
    ensures t.current.None? && t.batchResults == []
    ensures t.colleges == s.colleges && t.verifyIds == s.verifyIds
  {
    s.(current := None, batchResults := [])
  }

  /** Running the batch check: only the results change. */
  function RunVerification(s: AppState, table: Table): (t: AppState)
    ensures t.colleges == s.colleges && t.current == s.current && t.verifyIds == s.verifyIds
    ensures t.batchResults == VerifyBatch(s.colleges, s.current, table, s.verifyIds)
  {
    s.(batchResults := VerifyBatch(s.colleges, s.current, table, s.verifyIds))
  }

  /** Typing into input field `index`: only that field changes. */
  function EditField(ids: seq<string>, index: nat, value: string): (r: seq<string>)
    requires index < |ids|
    ensures |r| == |ids| && r[index] == value
    ensures forall i :: 0 <= i < |ids| && i != index ==> r[i] == ids[i]
  {
    ids[index := value]
  }

  /** The remove button: `filter((_, i) => i !== index)`, dropping the field
      at `index` and keeping the rest in order (nothing when out of range). */
  function RemoveField(ids: seq<string>, index: nat): (r: seq<string>)
    ensures index < |ids| ==> r == ids[..index] + ids[index + 1..]
    ensures index >= |ids| ==> r == ids
  {
    if ids == [] then []
    else if index == 0 then ids[1..]
    else
      var rest := RemoveField(ids[1..], index - 1);
      assert index < |ids| ==> ids[..index] == [ids[0]] + ids[1..][..index - 1];
      assert ids == [ids[0]] + ids[1..];
      [ids[0]] + rest
  }

  /** The "add another" button: a new empty field at the end. */
  function AddField(ids: seq<string>): (r: seq<string>)
    ensures |r| == |ids| + 1 && r[..|ids|] == ids && r[|ids|] == []
  {
    ids + [""]
  }

  // ---------------------------------------------------------------------
  // The state machine

  datatype Action =
    | Verify
    | AddToWall(index: nat)
    | RegisterInstitute(form: RegistrationForm, freshId: string)
    | SignOutAction
    | Edit(index: nat, value: string)
    | Remove(index: nat)
    | AddInput

  /** The control for the action is on screen: the registration form only
      without an active institute; everything else only with one; "Add to
      Wall" only beside a success; the remove button only while there is more
      than one field. */
  predicate Enabled(s: AppState, a: Action) {
    match a
    case RegisterInstitute(_, _) => s.current.None?
    case Verify => s.current.Some?
    case AddToWall(k) => s.current.Some? && k < |s.batchResults| && s.batchResults[k].Success?
    case SignOutAction => s.current.Some?
    case Edit(k, _) => s.current.Some? && k < |s.verifyIds|
    case Remove(k) => s.current.Some? && |s.verifyIds| > 1 && k < |s.verifyIds|
    case AddInput => s.current.Some?
  }

  /** One user action; an action whose control is not on screen does nothing. */
  function Step(s: AppState, table: Table, a: Action): AppState {
    if !Enabled(s, a) then s
    else
      match a
      case Verify => RunVerification(s, table)
      case AddToWall(k) => AddStudentToProfile(s, s.batchResults[k])
      case RegisterInstitute(form, freshId) => Register(s, form, freshId)
      case SignOutAction => SignOut(s)
      case Edit(k, v) => s.(verifyIds := EditField(s.verifyIds, k, v))
      case Remove(k) => s.(verifyIds := RemoveField(s.verifyIds, k))
      case AddInput => s.(verifyIds := AddField(s.verifyIds))
  }

  predicate IdUnused(cs: seq<College>, id: string) {
    forall i :: 0 <= i < |cs| ==> cs[i].id != id
  }

  /** The environment's part: a registration uses an id no institute has. */
  predicate Admissible(s: AppState, a: Action) {
    a.RegisterInstitute? ==> IdUnused(s.colleges, a.freshId)
  }

  function Run(s: AppState, table: Table, actions: seq<Action>): AppState
    decreases |actions|
  {
    if actions == [] then s else Run(Step(s, table, actions[0]), table, actions[1..])
  }

  predicate AdmissibleRun(s: AppState, table: Table, actions: seq<Action>)
    decreases |actions|
  {
    actions == [] || (Admissible(s, actions[0]) && AdmissibleRun(Step(s, table, actions[0]), table, actions[1..]))
  }

  // ---------------------------------------------------------------------
  // The invariant

  predicate DistinctIds(cs: seq<College>) {
    forall i, j :: 0 <= i < j < |cs| ==> cs[i].id != cs[j].id
  }

  /** No roll number is on the rosters of two different institutes. A roll
      number may still appear twice on one roster. */
  ghost predicate NoDoubleClaim(cs: seq<College>) {
    forall i, j, rollNo :: 0 <= i < |cs| && 0 <= j < |cs| && i != j && Holds(cs[i], rollNo) ==> !Holds(cs[j], rollNo)
  }

  /** Every pending success names a roll number no institute other than the
      active one holds. */
  predicate PendingUnclaimed(s: AppState) {
    forall k, i ::
      && 0 <= k < |s.batchResults| && 0 <= i < |s.colleges|
      && s.batchResults[k].Success? && IsOther(s.colleges[i], s.current)
      ==> !Holds(s.colleges[i], s.batchResults[k].id)
  }

  ghost predicate Inv(s: AppState) {
    && DistinctIds(s.colleges)
    && NoDoubleClaim(s.colleges)
    && (s.current.Some? ==> s.current.value in s.colleges)
    && PendingUnclaimed(s)
    && |s.verifyIds| >= 1
  }

  lemma HoldsAppended(c: College, st: Student, rollNo: string)
    ensures Holds(c.(students := c.students + [st]), rollNo) <==> Holds(c, rollNo) || st.id == rollNo
  {
    var d := c.(students := c.students + [st]);
    if Holds(c, rollNo) {
      var k :| 0 <= k < |c.students| && c.students[k].id == rollNo;
      assert d.students[k] == c.students[k];
    }
    if st.id == rollNo {
      assert d.students[|c.students|] == st;
    }
  }

  /** Adding the same result twice lists the student twice on the active
      roster: the invariant forbids a roll number on two rosters, not twice
      on one. */
  lemma AddTwiceListsTwice(s: AppState, res: VerificationResult)
    requires s.current.Some?
    ensures var t := AddStudentToProfile(AddStudentToProfile(s, res), res);
      && t.current.Some?
      && t.current.value.students == s.current.value.students + [NewStudent(res), NewStudent(res)]
  {
    var st := NewStudent(res);
    assert (s.current.value.students + [st]) + [st] == s.current.value.students + [st, st];
  }

  /** Under the invariant, adding a student appends it to exactly one roster,
      the active institute's list entry, and leaves every other entry alone. */
  lemma {:induction false} AddAppendsToActiveEntry(s: AppState, res: VerificationResult)
    requires Inv(s) && s.current.Some?
    ensures var t := AddStudentToProfile(s, res);
      exists a :: 0 <= a < |s.colleges| && s.colleges[a] == s.current.value &&
        t.colleges == s.colleges[a := s.colleges[a].(students := s.colleges[a].students + [NewStudent(res)])]
  {
    var t := AddStudentToProfile(s, res);
    var cur := s.current.value;
    var a :| 0 <= a < |s.colleges| && s.colleges[a] == cur;
    var expected := s.colleges[a := cur.(students := cur.students + [NewStudent(res)])];
    assert forall i :: 0 <= i < |s.colleges| ==> t.colleges[i] == expected[i];
  }

  /** Adding a student no institute but the active one holds keeps every
      roll number off a second roster. */
  lemma {:induction false} AddKeepsNoDoubleClaim(s: AppState, res: VerificationResult)
    requires Inv(s) && s.current.Some?
    requires forall i :: 0 <= i < |s.colleges| && IsOther(s.colleges[i], s.current) ==> !Holds(s.colleges[i], res.id)
    ensures NoDoubleClaim(AddStudentToProfile(s, res).colleges)
  {
    var t := AddStudentToProfile(s, res);
    var cur := s.current.value;
    var st := NewStudent(res);
    AddAppendsToActiveEntry(s, res);
    var a :| 0 <= a < |s.colleges| && s.colleges[a] == cur &&
      t.colleges == s.colleges[a := s.colleges[a].(students := s.colleges[a].students + [st])];
    forall i, j, rollNo | 0 <= i < |t.colleges| && 0 <= j < |t.colleges| && i != j && Holds(t.colleges[i], rollNo)
      ensures !Holds(t.colleges[j], rollNo)
    {
      HoldsAppended(cur, st, rollNo);
      if i == a {
        assert IsOther(s.colleges[j], s.current);
      } else if j == a {
        assert IsOther(s.colleges[i], s.current);
      }
    }
  }

  /** The results that survive an addition are still unclaimed: they keep
      their ids, and every roster but the active one is unchanged. */
  lemma {:induction false} AddKeepsPendingUnclaimed(s: AppState, res: VerificationResult)
    requires Inv(s) && s.current.Some?
    ensures PendingUnclaimed(AddStudentToProfile(s, res))
  {
    var t := AddStudentToProfile(s, res);
    forall k2, i |
      && 0 <= k2 < |t.batchResults| && 0 <= i < |t.colleges|
      && t.batchResults[k2].Success? && IsOther(t.colleges[i], t.current)
      ensures !Holds(t.colleges[i], t.batchResults[k2].id)
    {
      var r := t.batchResults[k2];
      assert r in s.batchResults;
      var k1 :| 0 <= k1 < |s.batchResults| && s.batchResults[k1] == r;
      assert t.colleges[i] == s.colleges[i];
    }
  }

  /** Adding a shown success keeps the invariant. */
  lemma {:induction false} AddPreservesInv(s: AppState, k: nat)
    requires Inv(s) && s.current.Some? && k < |s.batchResults| && s.batchResults[k].Success?
    ensures Inv(AddStudentToProfile(s, s.batchResults[k]))
  {
    var res := s.batchResults[k];
    var t := AddStudentToProfile(s, res);
    AddKeepsNoDoubleClaim(s, res);
    AddKeepsPendingUnclaimed(s, res);
    assert t.current.value in t.colleges by {
      var a :| 0 <= a < |s.colleges| && s.colleges[a] == s.current.value;
      assert t.colleges[a] == t.current.value;
    }
    assert forall i :: 0 <= i < |s.colleges| ==> t.colleges[i].id == s.colleges[i].id;
  }

  lemma RegisterPreservesInv(s: AppState, form: RegistrationForm, freshId: string)
    requires Inv(s) && s.current.None? && IdUnused(s.colleges, freshId)
    ensures Inv(Register(s, form, freshId))
  {
    var t := Register(s, form, freshId);
    var n := |s.colleges|;
    assert forall i :: 0 <= i < n ==> t.colleges[i] == s.colleges[i];
    assert !exists rollNo :: Holds(t.colleges[n], rollNo);
  }

  lemma VerifyPreservesInv(s: AppState, table: Table)
    requires Inv(s)
    ensures Inv(RunVerification(s, table))
  {
  }

  lemma RemovePreservesLength(ids: seq<string>, k: nat)
    requires |ids| > 1 && k < |ids|
    ensures |RemoveField(ids, k)| >= 1
  {
  }

  /** Every action keeps the invariant; in particular no transition ever puts
      one roll number on two institutes' rosters. */
  lemma {:induction false} StepPreservesInv(s: AppState, table: Table, a: Action)
    requires Inv(s) && Admissible(s, a)
    ensures Inv(Step(s, table, a))
  {
    if Enabled(s, a) {
      match a
      case Verify => VerifyPreservesInv(s, table);
      case AddToWall(k) => AddPreservesInv(s, k);
      case RegisterInstitute(form, freshId) => RegisterPreservesInv(s, form, freshId);
      case SignOutAction =>
      case Edit(k, v) =>
      case Remove(k) => RemovePreservesLength(s.verifyIds, k);
      case AddInput =>
    }
  }

  /** Every admissible sequence of actions keeps the invariant. */
  lemma {:induction false} RunPreservesInv(s: AppState, table: Table, actions: seq<Action>)
    requires Inv(s) && AdmissibleRun(s, table, actions)
    ensures Inv(Run(s, table, actions))
    decreases |actions|
  {
    if actions != [] {
      StepPreservesInv(s, table, actions[0]);
      RunPreservesInv(Step(s, table, actions[0]), table, actions[1..]);
    }
  }
}

=== FILE: seqs.dfy ===
/** `Array.prototype.filter` on sequences. */
module Seqs {

  /** The elements of `s` satisfying `p`, in order. */
  function Filter<T>(s: seq<T>, p: T -> bool): (r: seq<T>)
    ensures |r| <= |s|
  {
    if s == [] then [] else (if p(s[0]) then [s[0]] else []) + Filter(s[1..], p)
  }

  /** Every element kept satisfies `p`. */
  lemma {:induction false} FilterSatisfies<T>(s: seq<T>, p: T -> bool)
    ensures forall i :: 0 <= i < |Filter(s, p)| ==> p(Filter(s, p)[i])
  {
    if s != [] {
      FilterSatisfies(s[1..], p);
      var r := Filter(s, p);
      var head := if p(s[0]) then [s[0]] else [];
      assert r == head + Filter(s[1..], p);
      forall i | 0 <= i < |r|
        ensures p(r[i])
      {
        if i >= |head| {
          assert r[i] == Filter(s[1..], p)[i - |head|];
        }
      }
    }
  }

  /** Filtering goes element by element from the front. */
  lemma FilterCons<T>(x: T, s: seq<T>, p: T -> bool)
    ensures Filter([x] + s, p) == (if p(x) then [x] else []) + Filter(s, p)
  {
    var xs := [x] + s;
    assert xs[0] == x && xs[1..] == s;
  }

  /** Prepending the same element `y` to two sequences whose filters differ
      by a prefix `px` keeps that difference, provided `px` is empty or `y`
      is dropped. */
  lemma FilterConsSkip<T>(y: T, a: seq<T>, b: seq<T>, px: seq<T>, p: T -> bool)
    requires Filter(a, p) == px + Filter(b, p)
    requires px == [] || !p(y)
    ensures Filter([y] + a, p) == px + Filter([y] + b, p)
  {
    FilterCons(y, a, p);
    FilterCons(y, b, p);
    var fa, fb := Filter(a, p), Filter(b, p);
    if p(y) {
      assert px == [];
      assert Filter([y] + a, p) == [y] + fa;
      assert fa == fb;
    } else {
      assert Filter([y] + a, p) == [] + fa;
      assert Filter([y] + b, p) == [] + fb;
      assert [] + fa == fa && [] + fb == fb;
    }
  }

  /** Prepending the same element to both sides keeps a multiset identity. */
  lemma MultisetConsAdd<T>(y: T, a: seq<T>, b: seq<T>, x: T)
    requires multiset(a) == multiset(b) + multiset{x}
    ensures multiset([y] + a) == multiset([y] + b) + multiset{x}
  {
  }

  /** Filtering keeps every element satisfying `p` with its multiplicity and
      drops every other. */
  lemma {:induction false} FilterMultiset<T>(s: seq<T>, p: T -> bool)
    ensures forall x {:trigger multiset(Filter(s, p))[x]} ::
      multiset(Filter(s, p))[x] == if p(x) then multiset(s)[x] else 0
  {
    if s != [] {
      FilterMultiset(s[1..], p);
      assert s == [s[0]] + s[1..];
    }
  }

  /** An element is kept exactly when it occurs and satisfies `p`. */
  lemma FilterMembers<T>(s: seq<T>, p: T -> bool)
    ensures forall x :: x in Filter(s, p) <==> x in s && p(x)
  {
    FilterMultiset(s, p);
    forall x
      ensures x in Filter(s, p) <==> x in s && p(x)
    {
      assert x in Filter(s, p) <==> x in multiset(Filter(s, p));
      assert x in s <==> x in multiset(s);
    }
  }

  /** Filtering with a predicate every element meets changes nothing. */
  lemma {:induction false} FilterKeepsAll<T>(s: seq<T>, p: T -> bool)
    requires forall i :: 0 <= i < |s| ==> p(s[i])
    ensures Filter(s, p) == s
  {
    if s != [] {
      FilterKeepsAll(s[1..], p);
    }
  }
}

=== FILE: text.dfy ===
/** The string operations the application leans on: `String.prototype.trim`,
    `toLowerCase`, `includes`, `Array.prototype.join`, the digit extraction
    `replace(/\D/g, '')` with `parseInt`, and decimal printing of integers
    and of percentiles held in hundredths. */
module Text {

  import opened Options
  import Seqs

  /** ECMAScript WhiteSpace and LineTerminator code points: the characters
      `trim` removes. The space-separator (Zs) category is listed in full. */
  predicate IsWhiteSpace(c: char) {
    || c == '\t' || c == '\U{0B}' || c == '\U{0C}' || c == ' '
    || c == '\U{A0}' || c == '\U{1680}' || ('\U{2000}' <= c <= '\U{200A}')
    || c == '\U{202F}' || c == '\U{205F}' || c == '\U{3000}' || c == '\U{FEFF}'
    || c == '\n' || c == '\r' || c == '\U{2028}' || c == '\U{2029}'
  }

  /** Every character of `s` is white space. */
  predicate AllWhiteSpace(s: string) {
    s == [] || (IsWhiteSpace(s[0]) && AllWhiteSpace(s[1..]))
  }

  lemma {:induction false} AllWhiteSpaceAt(s: string, i: nat)
    requires AllWhiteSpace(s) && i < |s|
    ensures IsWhiteSpace(s[i])
  {
    if i > 0 {
      AllWhiteSpaceAt(s[1..], i - 1);
    }
  }

  lemma {:induction false} AllWhiteSpaceAppend(a: string, b: string)
    requires AllWhiteSpace(a) && AllWhiteSpace(b)
    ensures AllWhiteSpace(a + b)
  {
    if a == [] {
      assert a + b == b;
    } else {
      assert (a + b)[1..] == a[1..] + b;
      AllWhiteSpaceAppend(a[1..], b);
    }
  }

  /** `r` is `s[a..a+|r|]`, everything around it is white space, and `r`
      neither starts nor ends with white space. */
  predicate TrimmedAt(r: string, s: string, a: nat) {
    && a + |r| <= |s|
    && r == s[a..a + |r|]
    && AllWhiteSpace(s[..a])
    && AllWhiteSpace(s[a + |r|..])
    && (r == [] || (!IsWhiteSpace(r[0]) && !IsWhiteSpace(r[|r| - 1])))
  }

  /** Drops leading white space. */
  function TrimStart(s: string): string {
    if s == [] || !IsWhiteSpace(s[0]) then s else TrimStart(s[1..])
  }

  lemma {:induction false} TrimStartSpec(s: string)
    ensures var r := TrimStart(s);
      && |r| <= |s| && r == s[|s| - |r|..]
      && AllWhiteSpace(s[..|s| - |r|])
      && (r == [] || !IsWhiteSpace(r[0]))
  {
    if s != [] && IsWhiteSpace(s[0]) {
      var t := s[1..];
      TrimStartSpec(t);
      var r := TrimStart(t);
      assert TrimStart(s) == r;
      var n := |s| - |r|;
      assert t[|t| - |r|..] == s[n..];
      var w := s[..n];
      assert w != [] && w[0] == s[0];
      assert w[1..] == t[..|t| - |r|];
    }
  }

  /** Drops trailing white space. */
  function TrimEnd(s: string): string {
    if s == [] || !IsWhiteSpace(s[|s| - 1]) then s else TrimEnd(s[..|s| - 1])
  }

  lemma {:induction false} TrimEndSpec(s: string)
    ensures var r := TrimEnd(s);
      && |r| <= |s| && r == s[..|r|]
      && AllWhiteSpace(s[|r|..])
      && (r == [] || !IsWhiteSpace(r[|r| - 1]))
  {
    if s != [] && IsWhiteSpace(s[|s| - 1]) {
      var t := s[..|s| - 1];
      var r := TrimEnd(t);
      TrimEndSpec(t);
      assert TrimEnd(s) == r;
      assert s[..|r|] == t[..|r|];
      var last := [s[|s| - 1]];
      assert AllWhiteSpace(last) by {
        assert last[1..] == [];
      }
      assert s[|r|..] == t[|r|..] + last;
      AllWhiteSpaceAppend(t[|r|..], last);
    }
  }

  lemma {:induction false} TrimmedEmptyIff(r: string, s: string, a: nat)
    requires TrimmedAt(r, s, a)
    ensures r == [] <==> AllWhiteSpace(s)
  {
    if r == [] {
      assert s == s[..a] + s[a..];
      AllWhiteSpaceAppend(s[..a], s[a..]);
    } else if AllWhiteSpace(s) {
      AllWhiteSpaceAt(s, a);
    }
  }

  /** `String.prototype.trim`. */
  function Trim(s: string): string {
    TrimEnd(TrimStart(s))
  }

  /** Trimming keeps the longest infix that neither starts nor ends with
      white space, dropping only white space around it; the result is empty
      exactly when `s` is all white space. */
  lemma {:induction false} TrimSpec(s: string)
    ensures exists a: nat :: TrimmedAt(Trim(s), s, a)
    ensures Trim(s) == [] <==> AllWhiteSpace(s)
  {
    var t := TrimStart(s);
    var r := TrimEnd(t);
    TrimStartSpec(s);
    TrimEndSpec(t);
    var a: nat := |s| - |t|;
    assert s[a..a + |r|] == r;
    assert s[a + |r|..] == t[|r|..];
    assert Trim(s) == r && TrimmedAt(r, s, a);
    TrimmedEmptyIff(r, s, a);
  }

  predicate IsUpper(c: char) {
    'A' <= c <= 'Z'
  }

  /** ASCII case folding: an upper-case letter becomes the lower-case letter
      at the same place in the alphabet; other characters are left as they
      are. */
  function LowerChar(c: char): (r: char)
    ensures !IsUpper(r)
    ensures !IsUpper(c) ==> r == c
    ensures IsUpper(c) ==> 'a' <= r <= 'z' && r as int - 'a' as int == c as int - 'A' as int
  {
    if IsUpper(c) then (c as int + 32) as char else c
  }

  /** `toLowerCase`, restricted to ASCII letters: each character is folded
      on its own, so no upper-case ASCII letter remains, every upper-case
      letter becomes its lower-case letter, and every other character is
      kept. */
  function Lower(s: string): (r: string)
    ensures |r| == |s|
    ensures forall i :: 0 <= i < |r| ==> !IsUpper(r[i])
    ensures forall i :: 0 <= i < |s| && !IsUpper(s[i]) ==> r[i] == s[i]
    ensures forall i :: 0 <= i < |s| && IsUpper(s[i]) ==>
      'a' <= r[i] <= 'z' && r[i] as int - 'a' as int == s[i] as int - 'A' as int
  {
    seq(|s|, i requires 0 <= i < |s| => LowerChar(s[i]))
  }

  /** Two characters are equal ignoring ASCII case: the same character, or an
      upper-case letter and its lower-case letter, either way round. */
  predicate SameIgnoringCase(c: char, d: char) {
    || c == d
    || (IsUpper(c) && d as int == c as int + 32)
    || (IsUpper(d) && c as int == d as int + 32)
  }

  /** Folding identifies exactly the characters equal ignoring case. */
  lemma LowerCharEqIff(c: char, d: char)
    ensures LowerChar(c) == LowerChar(d) <==> SameIgnoringCase(c, d)
  {
  }

  /** `needle` occurs in `hay` at `i`, ignoring ASCII case. */
  predicate InfixIgnoringCaseAt(hay: string, needle: string, i: nat) {
    && i + |needle| <= |hay|
    && forall k :: 0 <= k < |needle| ==> SameIgnoringCase(hay[i + k], needle[k])
  }

  /** Lower-cased, `needle` occurs in lower-cased `hay` at `i` exactly when it
      occurs there ignoring case. */
  lemma LowerInfixAtIff(hay: string, needle: string, i: nat)
    ensures InfixAt(Lower(hay), Lower(needle), i) <==> InfixIgnoringCaseAt(hay, needle, i)
  {
    var lh, ln := Lower(hay), Lower(needle);
    if i + |needle| <= |hay| {
      if InfixAt(lh, ln, i) {
        forall k | 0 <= k < |needle|
          ensures SameIgnoringCase(hay[i + k], needle[k])
        {
          assert lh[i..i + |needle|][k] == lh[i + k];
          LowerCharEqIff(hay[i + k], needle[k]);
        }
      }
      if InfixIgnoringCaseAt(hay, needle, i) {
        forall k | 0 <= k < |needle|
          ensures lh[i..i + |needle|][k] == ln[k]
        {
          LowerCharEqIff(hay[i + k], needle[k]);
        }
      }
    }
  }

  /** `a.toLowerCase().includes(b.toLowerCase())` holds exactly when `b`
      occurs in `a` ignoring ASCII case. */
  lemma LowerIncludesIff(hay: string, needle: string)
    ensures IsInfix(Lower(hay), Lower(needle)) <==>
      exists i: nat :: i <= |hay| && InfixIgnoringCaseAt(hay, needle, i)
  {
    forall i: nat
      ensures InfixAt(Lower(hay), Lower(needle), i) <==> InfixIgnoringCaseAt(hay, needle, i)
    {
      LowerInfixAtIff(hay, needle, i);
    }
  }

  predicate InfixAt(hay: string, needle: string, i: nat) {
    i + |needle| <= |hay| && hay[i..i + |needle|] == needle
  }

  /** `String.prototype.includes`. */
  predicate IsInfix(hay: string, needle: string) {
    exists i: nat :: i <= |hay| && InfixAt(hay, needle, i)
  }

  lemma InfixOfSuffix(a: string, b: string, needle: string)
    requires IsInfix(b, needle)
    ensures IsInfix(a + b, needle)
  {
    var i: nat :| i <= |b| && InfixAt(b, needle, i);
    assert (a + b)[|a| + i..|a| + i + |needle|] == b[i..i + |needle|];
    assert InfixAt(a + b, needle, |a| + i);
  }

  /** `Array.prototype.join`: the items with `sep` between neighbours. */
  function Join(xs: seq<string>, sep: string): string {
    if |xs| == 0 then ""
    else if |xs| == 1 then xs[0]
    else xs[0] + sep + Join(xs[1..], sep)
  }

  /** Joining one more item appends the separator and that item, so the
      items appear in order with exactly one separator between neighbours. */
  lemma {:induction false} JoinAppend(xs: seq<string>, x: string, sep: string)
    ensures Join(xs + [x], sep) == if xs == [] then x else Join(xs, sep) + sep + x
  {
    var ys := xs + [x];
    if xs == [] {
      assert ys == [x];
    } else if |xs| == 1 {
      assert ys == [xs[0], x] && ys[1..] == [x];
    } else {
      assert ys[0] == xs[0] && ys[1..] == xs[1..] + [x];
      JoinAppend(xs[1..], x, sep);
    }
  }

  /** Every item of a join occurs in it. */
  lemma {:induction false} JoinHasEach(xs: seq<string>, sep: string, i: nat)
    requires i < |xs|
    ensures IsInfix(Join(xs, sep), xs[i])
  {
    var j := Join(xs, sep);
    if i == 0 {
      if |xs| == 1 {
        assert InfixAt(j, xs[0], 0);
      } else {
        assert j == xs[0] + (sep + Join(xs[1..], sep));
        assert InfixAt(j, xs[0], 0);
      }
    } else {
      JoinHasEach(xs[1..], sep, i - 1);
      assert j == (xs[0] + sep) + Join(xs[1..], sep);
      InfixOfSuffix(xs[0] + sep, Join(xs[1..], sep), xs[i]);
    }
  }

  predicate IsDigit(c: char) {
    '0' <= c <= '9'
  }

  predicate AllDigits(s: string) {
    forall i :: 0 <= i < |s| ==> IsDigit(s[i])
  }

  function DigitChar(d: nat): (c: char)
    requires d < 10
    ensures IsDigit(c)
  {
    ('0' as int + d) as char
  }

  function DigitValue(c: char): (d: nat)
    requires IsDigit(c)
    ensures d < 10
  {
    c as int - '0' as int
  }

  /** The number a string of decimal digits denotes (leading zeros allowed). */
  function DecimalValue(s: string): nat
    requires AllDigits(s)
  {
    if s == [] then 0 else DecimalValue(s[..|s| - 1]) * 10 + DigitValue(s[|s| - 1])
  }

  /** Decimal printing of a non-negative integer, as `${n}` does it:
      digits only, and no leading zero except for 0 itself. */
  function NatText(n: nat): (r: string)
    ensures 1 <= |r|
    ensures AllDigits(r)
    ensures r[0] == '0' ==> n == 0
  {
    if n < 10 then [DigitChar(n)] else NatText(n / 10) + [DigitChar(n % 10)]
  }

  /** Reading back a printed number gives the number. */
  lemma {:induction false} DecimalValueOfNatText(n: nat)
    ensures DecimalValue(NatText(n)) == n
  {
    var r := NatText(n);
    if n >= 10 {
      var t := NatText(n / 10);
      assert r == t + [DigitChar(n % 10)];
      assert r[..|r| - 1] == t;
      DecimalValueOfNatText(n / 10);
    }
  }

  /** `s.replace(/\D/g, '')`: the decimal digits of `s`, in order. */
  function KeepDigits(s: string): string {
    if s == [] then [] else (if IsDigit(s[0]) then [s[0]] else []) + KeepDigits(s[1..])
  }

  /** Digit extraction keeps only digits, never lengthens its input, finds
      nothing exactly when the input has no digit, and leaves a string of
      digits as it is. */
  lemma {:induction false} KeepDigitsSpec(s: string)
    ensures AllDigits(KeepDigits(s))
    ensures |KeepDigits(s)| <= |s|
    ensures KeepDigits(s) == [] <==> forall i :: 0 <= i < |s| ==> !IsDigit(s[i])
    ensures AllDigits(s) ==> KeepDigits(s) == s
  {
    if s != [] {
      KeepDigitsSpec(s[1..]);
      assert forall i :: 1 <= i < |s| ==> s[i] == s[1..][i - 1];
      assert s == [s[0]] + s[1..];
    }
  }

  /** Digit extraction works character by character. */
  lemma KeepDigitsCons(c: char, s: string)
    ensures KeepDigits([c] + s) == (if IsDigit(c) then [c] else []) + KeepDigits(s)
  {
    assert ([c] + s)[0] == c && ([c] + s)[1..] == s;
  }

  /** `parseInt(s.replace(/\D/g, ''))`, with NaN (no digit at all) as None.
      Precision loss on very long digit strings is not modelled. */
  function ParseDigitsOf(s: string): Option<nat> {
    KeepDigitsSpec(s);
    var d := KeepDigits(s);
    if d == [] then None else Some(DecimalValue(d))
  }

  /** The number is NaN exactly when the string has no digit. */
  lemma ParseDigitsOfNaN(s: string)
    ensures ParseDigitsOf(s).None? <==> forall i :: 0 <= i < |s| ==> !IsDigit(s[i])
  {
    KeepDigitsSpec(s);
  }

  /** Digit extraction is the filter that keeps the decimal digits: the
      fee's digits, all of them, in order. */
  lemma {:induction false} KeepDigitsIsFilter(s: string)
    ensures KeepDigits(s) == Seqs.Filter(s, IsDigit)
  {
    if s != [] {
      KeepDigitsIsFilter(s[1..]);
    }
  }

  /** A printed number parses back to itself. */
  lemma ParseDigitsOfNatText(n: nat)
    ensures ParseDigitsOf(NatText(n)) == Some(n)
  {
    KeepDigitsSpec(NatText(n));
    DecimalValueOfNatText(n);
  }

  /** JavaScript's printing of a number with at most two decimals, given in
      hundredths: the integer part, then the fraction without trailing zeros.
      A whole number has no point at all; otherwise a point and one or two
      fraction digits follow, the last of them never 0. */
  function HundredthsText(h: nat): (r: string)
    ensures var w := NatText(h / 100);
      && |w| <= |r| && r[..|w|] == w
      && (h % 100 == 0 ==> r == w)
      && (h % 100 != 0 ==>
            && (|r| == |w| + 2 || |r| == |w| + 3)
            && r[|w|] == '.'
            && AllDigits(r[|w| + 1..])
            && r[|r| - 1] != '0')
  {
    var whole := NatText(h / 100);
    var frac := h % 100;
    if frac == 0 then whole
    else if frac % 10 == 0 then whole + "." + [DigitChar(frac / 10)]
    else whole + "." + [DigitChar(frac / 10), DigitChar(frac % 10)]
  }

  /** Reads a decimal with at most two fraction digits back into hundredths. */
  function ReadHundredths(s: string): Option<nat> {
    var n := |s|;
    if n >= 3 && s[n - 3] == '.' && AllDigits(s[..n - 3]) && IsDigit(s[n - 2]) && IsDigit(s[n - 1]) then
      Some(DecimalValue(s[..n - 3]) * 100 + DigitValue(s[n - 2]) * 10 + DigitValue(s[n - 1]))
    else if n >= 2 && s[n - 2] == '.' && AllDigits(s[..n - 2]) && IsDigit(s[n - 1]) then
      Some(DecimalValue(s[..n - 2]) * 100 + DigitValue(s[n - 1]) * 10)
    else if AllDigits(s) then
      Some(DecimalValue(s) * 100)
    else None
  }

  lemma WholeTextRoundTrip(h: nat)
    requires h % 100 == 0
    ensures ReadHundredths(HundredthsText(h)) == Some(h)
  {
    var r := NatText(h / 100);
    DecimalValueOfNatText(h / 100);
    assert HundredthsText(h) == r;
    var n := |r|;
    assert n >= 3 ==> r[n - 3] != '.';
    assert n >= 2 ==> r[n - 2] != '.';
  }

  lemma TenthsTextRoundTrip(h: nat)
    requires h % 100 != 0 && h % 100 % 10 == 0
    ensures ReadHundredths(HundredthsText(h)) == Some(h)
  {
    var whole := NatText(h / 100);
    var d := DigitChar(h % 100 / 10);
    DecimalValueOfNatText(h / 100);
    var r := whole + ['.', d];
    assert HundredthsText(h) == r;
    var n := |r|;
    assert r[..n - 2] == whole;
    assert r[n - 2] == '.' && r[n - 1] == d;
    assert n >= 3 ==> r[n - 3] == whole[n - 3];
    assert DigitValue(d) == h % 100 / 10;
  }

  lemma HundredthsDigitsRoundTrip(h: nat)
    requires h % 100 % 10 != 0
    ensures ReadHundredths(HundredthsText(h)) == Some(h)
  {
    var whole := NatText(h / 100);
    var d1, d2 := DigitChar(h % 100 / 10), DigitChar(h % 100 % 10);
    DecimalValueOfNatText(h / 100);
    var r := whole + ['.', d1, d2];
    assert HundredthsText(h) == r;
    var n := |r|;
    assert r[..n - 3] == whole;
    assert r[n - 3] == '.' && r[n - 2] == d1 && r[n - 1] == d2;
    assert DigitValue(d1) == h % 100 / 10 && DigitValue(d2) == h % 100 % 10;
  }

  /** Printing a percentile and reading it back gives the percentile. */
  lemma HundredthsTextRoundTrip(h: nat)
    ensures ReadHundredths(HundredthsText(h)) == Some(h)
  {
    if h % 100 == 0 {
      WholeTextRoundTrip(h);
    } else if h % 100 % 10 == 0 {
      TenthsTextRoundTrip(h);
    } else {
      HundredthsDigitsRoundTrip(h);
    }
  }
}

=== FILE: types.dfy ===
/** The records of the application: students on an institute's roster,
    institutes (colleges), rows of the roll-number lookup table, and the
    tagged outcome of verifying one roll number. */
module Types {

  import opened Options

  /** The exam categories a student or table row can carry. */
  datatype Exam = JeeMains | JeeAdvanced | Neet

  /** A roster entry. `score` is the display text ("99.85%tile", "AIR 450"). */
  datatype Student = Student(id: string, name: string, score: string, exam: Exam)

  /** An institute. The rating is kept in tenths (4.5 is 45). */
  datatype College = College(
    id: string,
    name: string,
    location: string,
    fees: string,
    phone: string,
    hostel: bool,
    students: seq<Student>,
    ratingTenths: nat)

  /** One row of the roll-number lookup table. Every field of the untyped
      row may be absent; the percentile is kept in hundredths (99.85 is 9985). */
  datatype TableEntry = TableEntry(
    name: Option<string>,
    percentile: Option<nat>,
    rank: Option<nat>,
    exam: Option<Exam>)

  /** The lookup table, keyed by roll number. */
  type Table = map<string, TableEntry>

  /** The outcome of verifying one roll number, with exactly the fields each
      status carries. A success copies the table row's fields. */
  datatype VerificationResult =
    | Success(id: string, name: Option<string>, percentile: Option<nat>, rank: Option<nat>, exam: Option<Exam>)
    | Malpractice(id: string, message: string)
    | Error(id: string, message: string)

  /** The institute has a student with this roll number on its roster. */
  predicate Holds(c: College, rollNo: string) {
    exists k :: 0 <= k < |c.students| && c.students[k].id == rollNo
  }
}

=== FILE: verifier.dfy ===
/** Batch roll-number verification (`handleBatchVerify`): every non-blank
    entry is trimmed, checked for a prior claim by another institute, and
    otherwise looked up in the roll-number table. */
module Verifier {

  import opened Options
  import opened Text
  import opened Types
  import Seqs

  const EmptyFieldMessage := "Empty field"
  const InvalidRollNumber := "Invalid Roll Number"
  const DoubleClaimPrefix := "Double Claim Detected! Already listed by \""

  /** The institute is not the active one (with no active institute, every
      institute counts as another). */
  predicate IsOther(c: College, active: Option<College>) {
    active.None? || c.id != active.value.id
  }

  /** The institute already holds the roll number and is not the active one. */
  predicate Claims(c: College, active: Option<College>, rollNo: string) {
    Holds(c, rollNo) && IsOther(c, active)
  }

  /** Institute `i` is the first in list order that claims the roll number. */
  predicate IsFirstClaim(cs: seq<College>, active: Option<College>, rollNo: string, i: nat) {
    && i < |cs|
    && Claims(cs[i], active, rollNo)
    && forall j :: 0 <= j < i ==> !Claims(cs[j], active, rollNo)
  }

  /** `colleges.find(...)` of the claim scan, as an index. */
  function FirstClaim(cs: seq<College>, active: Option<College>, rollNo: string): (r: Option<nat>)
    ensures r.None? <==> forall i :: 0 <= i < |cs| ==> !Claims(cs[i], active, rollNo)
    ensures r.Some? ==> IsFirstClaim(cs, active, rollNo, r.value)
  {
    if cs == [] then None
    else if Claims(cs[0], active, rollNo) then Some(0)
    else
      match FirstClaim(cs[1..], active, rollNo)
      case None => None
      case Some(i) => Some(i + 1)
  }

  /** The double-claim message; the institute's name can be read back from it. */
  function MalpracticeMessage(collegeName: string): (m: string)
    ensures |m| == |DoubleClaimPrefix| + |collegeName| + 2
    ensures m[..|DoubleClaimPrefix|] == DoubleClaimPrefix
    ensures m[|DoubleClaimPrefix|..|m| - 2] == collegeName
    ensures m[|m| - 2..] == "\"."
  {
    DoubleClaimPrefix + collegeName + "\"."
  }

  /** The outcome for one non-blank, trimmed roll number, against one snapshot
      of the institutes. The claim scan comes first: a claim by another
      institute is malpractice whatever the table says, and the message names
      the first claimant in list order. The active institute's own roster is
      not scanned; with no active institute every roster is. Only without a
      claim is the table consulted. */
  function Check(cs: seq<College>, active: Option<College>, table: Table, rollNo: string): (r: VerificationResult)
    ensures r.id == rollNo
    ensures r.Malpractice? <==> exists i :: 0 <= i < |cs| && Claims(cs[i], active, rollNo)
    ensures r.Malpractice? ==>
      exists i: nat :: IsFirstClaim(cs, active, rollNo, i) && r.message == MalpracticeMessage(cs[i].name)
    ensures active.None? ==> (r.Malpractice? <==> exists i :: 0 <= i < |cs| && Holds(cs[i], rollNo))
    ensures (forall i :: 0 <= i < |cs| && Holds(cs[i], rollNo) ==> !IsOther(cs[i], active)) ==> !r.Malpractice?
    ensures r.Error? <==> !r.Malpractice? && rollNo !in table
    ensures r.Error? ==> r.message == InvalidRollNumber
    ensures r.Success? <==> !r.Malpractice? && rollNo in table
    ensures r.Success? ==>
      var e := table[rollNo];
      r.name == e.name && r.percentile == e.percentile && r.rank == e.rank && r.exam == e.exam
  {
    match FirstClaim(cs, active, rollNo)
    case Some(i) => Malpractice(rollNo, MalpracticeMessage(cs[i].name))
    case None =>
      if rollNo !in table then Error(rollNo, InvalidRollNumber)
      else
        var e := table[rollNo];
        Success(rollNo, e.name, e.percentile, e.rank, e.exam)
  }

  /** The callback of the `map`: a blank entry becomes an error with an empty
      id, any other entry is checked under its trimmed text. */
  function Classify(cs: seq<College>, active: Option<College>, table: Table, raw: string): (r: VerificationResult)
    ensures r.id == Trim(raw)
    ensures r.id == [] ==> r == Error([], EmptyFieldMessage)
  {
    var cleanId := Trim(raw);
    if cleanId == [] then Error([], EmptyFieldMessage) else Check(cs, active, table, cleanId)
  }

  function ClassifyEach(cs: seq<College>, active: Option<College>, table: Table, ids: seq<string>): seq<VerificationResult> {
    if ids == [] then [] else [Classify(cs, active, table, ids[0])] + ClassifyEach(cs, active, table, ids[1..])
  }

  /** The `filter` after the `map`: keep results with a non-empty id. */
  predicate HasId(r: VerificationResult) {
    r.id != []
  }

  /** The trimmed non-blank entries, in input order: one per entry whose
      trimmed text is non-empty. */
  function CleanIds(ids: seq<string>): seq<string> {
    if ids == [] then []
    else (if Trim(ids[0]) == [] then [] else [Trim(ids[0])]) + CleanIds(ids[1..])
  }

  /** The blank entries of a batch contribute nothing, and the batch splits
      over concatenation. */
  lemma {:induction false} CleanIdsAppend(a: seq<string>, b: seq<string>)
    ensures CleanIds(a + b) == CleanIds(a) + CleanIds(b)
  {
    if a == [] {
      assert a + b == b;
    } else {
      var head := if Trim(a[0]) == [] then [] else [Trim(a[0])];
      assert (a + b)[0] == a[0];
      assert (a + b)[1..] == a[1..] + b;
      CleanIdsAppend(a[1..], b);
      calc {
        CleanIds(a + b);
        head + CleanIds(a[1..] + b);
        head + (CleanIds(a[1..]) + CleanIds(b));
        (head + CleanIds(a[1..])) + CleanIds(b);
        CleanIds(a) + CleanIds(b);
      }
    }
  }

  /** One check per roll number, in order. */
  function CheckEach(cs: seq<College>, active: Option<College>, table: Table, rolls: seq<string>): seq<VerificationResult> {
    if rolls == [] then [] else [Check(cs, active, table, rolls[0])] + CheckEach(cs, active, table, rolls[1..])
  }

  /** The `k`-th outcome is the check of the `k`-th roll number. */
  lemma {:induction false} CheckEachAt(cs: seq<College>, active: Option<College>, table: Table, rolls: seq<string>)
    ensures |CheckEach(cs, active, table, rolls)| == |rolls|
    ensures forall k :: 0 <= k < |rolls| ==> CheckEach(cs, active, table, rolls)[k] == Check(cs, active, table, rolls[k])
  {
    if rolls != [] {
      CheckEachAt(cs, active, table, rolls[1..]);
      var r := CheckEach(cs, active, table, rolls);
      forall k | 0 <= k < |rolls|
        ensures r[k] == Check(cs, active, table, rolls[k])
      {
        if k > 0 {
          assert r[k] == CheckEach(cs, active, table, rolls[1..])[k - 1];
        }
      }
    }
  }

  /** Filtering the mapped results on a non-empty id is the same as dropping
      the blank entries first and checking the rest. */
  lemma {:induction false} FilterAfterMapIsCheckOfCleanIds(cs: seq<College>, active: Option<College>, table: Table, ids: seq<string>)
    ensures Seqs.Filter(ClassifyEach(cs, active, table, ids), HasId) == CheckEach(cs, active, table, CleanIds(ids))
  {
    if ids != [] {
      var mapped := ClassifyEach(cs, active, table, ids);
      var first := Classify(cs, active, table, ids[0]);
      var rest := ClassifyEach(cs, active, table, ids[1..]);
      assert mapped == [first] + rest;
      assert mapped[0] == first && mapped[1..] == rest;
      FilterAfterMapIsCheckOfCleanIds(cs, active, table, ids[1..]);
      var tail := CleanIds(ids[1..]);
      if Trim(ids[0]) == [] {
        assert !HasId(first);
        assert CleanIds(ids) == tail;
      } else {
        var t := Trim(ids[0]);
        assert HasId(first) && first == Check(cs, active, table, t);
        assert CleanIds(ids) == [t] + tail;
        assert ([t] + tail)[0] == t && ([t] + tail)[1..] == tail;
      }
    }
  }

  /** `handleBatchVerify`: map every entry through `Classify`, then keep the
      results with a non-empty id. The outcome is exactly one `Check` per
      non-blank entry, in input order, each carrying the trimmed entry as its
      id; every entry is checked against the same snapshot, so two entries
      with the same trimmed text get the same outcome. */
  function VerifyBatch(cs: seq<College>, active: Option<College>, table: Table, ids: seq<string>): (r: seq<VerificationResult>)
    ensures |r| == |CleanIds(ids)|
    ensures forall k :: 0 <= k < |r| ==> r[k].id == CleanIds(ids)[k]
    ensures forall k :: 0 <= k < |r| ==> r[k] == Check(cs, active, table, CleanIds(ids)[k])
    ensures forall k1, k2 :: 0 <= k1 < |r| && 0 <= k2 < |r| && r[k1].id == r[k2].id ==> r[k1] == r[k2]
  {
    FilterAfterMapIsCheckOfCleanIds(cs, active, table, ids);
    CheckEachAt(cs, active, table, CleanIds(ids));
    Seqs.Filter(ClassifyEach(cs, active, table, ids), HasId)
  }

  /** A batch is the concatenation of its parts' batches. */
  lemma VerifyBatchAppend(cs: seq<College>, active: Option<College>, table: Table, a: seq<string>, b: seq<string>)
    ensures VerifyBatch(cs, active, table, a + b) == VerifyBatch(cs, active, table, a) + VerifyBatch(cs, active, table, b)
  {
    var r, ra, rb := VerifyBatch(cs, active, table, a + b), VerifyBatch(cs, active, table, a), VerifyBatch(cs, active, table, b);
    var ids, idsA, idsB := CleanIds(a + b), CleanIds(a), CleanIds(b);
    CleanIdsAppend(a, b);
    assert |r| == |ra + rb|;
    forall k | 0 <= k < |r|
      ensures r[k] == (ra + rb)[k]
    {
      if k < |ra| {
        assert ids[k] == idsA[k];
      } else {
        assert ids[k] == idsB[k - |ra|];
      }
    }
  }

  /** One entry gives no outcome when blank and its own check otherwise. */
  lemma VerifyBatchSingle(cs: seq<College>, active: Option<College>, table: Table, raw: string)
    ensures VerifyBatch(cs, active, table, [raw]) ==
      if Trim(raw) == [] then [] else [Check(cs, active, table, Trim(raw))]
  {
    assert CleanIds([raw]) == (if Trim(raw) == [] then [] else [Trim(raw)]) + CleanIds([]);
  }
}
